=== FILE: README.md ===
# FEZ HAT drivers, modelled in Dafny

This project models the C# library that drives the GHI FEZ HAT, a Raspberry Pi
expansion board. The board carries four parts:

- a PCA9685 16-channel PWM controller;
- an ADS7830 8-channel analog-to-digital converter;
- an MMA8453 accelerometer;
- a set of GPIO lines for buttons, an LED and motor direction.

The library is modelled in three layers.

- **The two I2C drivers.** `ADS7830` and `MMA8453` compute a bus address
  from strap inputs. The converter encodes a channel into a command byte.
  The accelerometer decodes the 10-bit two's-complement axis samples of a
  six-byte burst. Each driver is a class. Its read methods log the bus
  transaction and take the peripheral's answer as a parameter.
- **The board.** `GHI` composes the parts into a `FezHat` class. It also
  has the `Motor`, `Servo` and `RgbLed` actuators, the `Color` values, and
  the sensor readers.
- **Shared state.**
  - `PCA9685.Pwm` holds the PWM chip as abstract state: one shared
    frequency, plus per-channel duty cycles and raw ticks.
  - `Gpio.Controller` maps each open line to its direction and level.
  - `Signals.Trace` is a ghost trace shared by the PWM chip and the GPIO
    controller. It records the order in which outputs change.

C# byte arithmetic is modelled in `Bits`. The language promotes bytes to
non-negative `int`s before shifting or or-ing them. So a left shift is
repeated doubling, a right shift is a division, and `|` is a bitwise or on
naturals. The `|` is proved to agree with its bit-by-bit definition.
Exceptions become the `Result` and `Outcome` values of `Errors`.

The main properties proved:

- **Addresses.** The strap inputs give 0x48..0x4B for the converter and
  0x1C/0x1D for the accelerometer, and distinct straps give distinct
  addresses.
- **Converter commands.** Each command byte has the mode bits and the
  interleaved channel-select field. The commands of channels 0..7 are
  pairwise distinct.
- **Axis samples.** Decoding keeps the eight bits of each high byte and
  the top two bits of each low byte, and ignores the low six bits. The sign
  correction of the resulting 10-bit sample is a bijection from 0..1023
  onto -512..511.
- **Motor speed changes.** At every instant of a speed change, a motor
  terminal either has complementary direction lines or zero duty.
- **Board creation.** `Create` opens every board line. It leaves the header
  and button lines with their directions, and lines 13, 12, 27, 23, 6 and 5
  as outputs, with the four direction lines driven low. Every PWM channel
  is off (duty 0, ticks 0), and the accelerometer has received exactly its
  initialisation write. It binds each actuator to its channels, and the
  bound channels are pairwise distinct. Every part of the new board is
  freshly allocated, so a caller can go on to use it.
- **Sample start-up.** `SamplePi.StartBoard` creates the board and
  calibrates both servos as the sample program does; every angle the
  servos then accept maps inside the calibrated 102..491 ticks.
- **Board operations.** Each operation checks its argument before it
  changes anything, and then changes only its own channel or line.

Some behaviours of the program are easy to miss, and the model keeps each
of them as the code has it.

- `ADS7830.ReadRaw` accepts channel 8, because its range check is
  `channel > 8` (src/LowLevelDrivers/ADS7830.cs:39). Channel 8 then reads
  the same input as channel 1 (`ADS7830.ChannelEightAliasesOne`).
- `Motor.Speed` writes the two direction lines one after the other
  (src/FezHat/FezHat.cs:537-538). During a reversal there is therefore an
  instant when both lines are equal: both high when turning to a positive
  speed, both low when turning to a negative one
  (`GHI.ReversalPassesThroughEqualLines`).
  The duty cycle was set to 0 just before (line 535), and the model proves
  that it is 0 at that instant (`GHI.SpeedChangeStaysSafe`).
- `Servo.Position` truncates the tick count with a `(ushort)` cast
  (src/FezHat/FezHat.cs:472).
- `Servo.Position` maps the angle as `scale * angle + offset`, measured
  from angle 0 rather than from the minimum angle
  (src/FezHat/FezHat.cs:472, 509-510). With a minimum angle above 0 the
  written tick overshoots the calibrated maximum (see "## Findings").
  `GHI.Servo.SetPosition` writes the tick as the code computes it.
- `Servo.SetLimits` documents its pulse widths in milliseconds
  (src/FezHat/FezHat.cs:486-487), but it divides them by the period
  `1000000 / frequency` (line 504), which is in microseconds. The model
  follows the code and takes the widths in microseconds; the sample's
  500..2400 are servo pulses of 0.5 to 2.4 ms.
- `RgbLed.TurnOff` sets the three channels to 0 but keeps the stored color
  (src/FezHat/FezHat.cs:439-443). So does `GHI.RgbLed.TurnOff`.

## Model

| member | source | states |
|---|---|---|
| Bits.ShlIsProduct | src/LowLevelDrivers/ADS7830.cs:41 | a left shift by `k` multiplies by 2^k |
| Bits.ToByte | src/LowLevelDrivers/ADS7830.cs:16 | the `(byte)` cast leaves a value below 256 unchanged |
| Bits.OrBit | src/LowLevelDrivers/ADS7830.cs:16 | a bit of `a \| b` is set exactly when it is set in `a` or in `b` |
| Bits.OrSplit | src/LowLevelDrivers/ADS7830.cs:41 | `\|` splits at any bit boundary: high parts and low parts are or-ed separately |
| Bits.ShlOr | src/LowLevelDrivers/MMA8453.cs:57 | `(a << k) \| b` is `a * 2^k + b` when `b < 2^k`: the or never carries |
| Bits.ShlLowBitsClear | src/LowLevelDrivers/ADS7830.cs:41 | a left shift by `k` leaves bits below `k` clear |
| Bits.ByteFraction | src/LowLevelDrivers/ADS7830.cs:49 | `b / 255.0` lies in [0, 1]; it is 0 exactly for byte 0 and 1 exactly for 255 |
| Bits.ByteFractionMonotone | src/LowLevelDrivers/ADS7830.cs:49 | the fraction preserves the order of bytes in both directions |
| ADS7830.GetAddress | src/LowLevelDrivers/ADS7830.cs:16 | the address is a 7-bit address whose bits above the two strap bits are those of 0x48 |
| ADS7830.StrapBits | src/LowLevelDrivers/ADS7830.cs:16 | the two strap bits land in bits 0 and 1 without carrying into 0x48 |
| ADS7830.AddressFormula | src/LowLevelDrivers/ADS7830.cs:16 | the address is 0x48 plus 1 for `a0` plus 2 for `a1`, a 7-bit address |
| ADS7830.AddressesDistinct | src/LowLevelDrivers/ADS7830.cs:16 | two strap settings give the same address exactly when they are equal |
| ADS7830.Select | src/LowLevelDrivers/ADS7830.cs:41 | the select value fits in three bits, and for channels 0..7 `ChannelOf` recovers the channel from it |
| ADS7830.SelectRoundTrip | src/LowLevelDrivers/ADS7830.cs:41 | the even/odd channel interleaving is a bijection of 0..7, undone by `ChannelOf` |
| ADS7830.Command | src/LowLevelDrivers/ADS7830.cs:41 | every command byte lies in 0x84..0xF4 and has low nibble 4, the mode bits |
| ADS7830.CommandFormula | src/LowLevelDrivers/ADS7830.cs:41 | the command byte is 0x84 plus 16 times the select value |
| ADS7830.CommandField | src/LowLevelDrivers/ADS7830.cs:41 | the shifted select field does not overlap the mode bits 0x84 |
| ADS7830.CommandNibbles | src/LowLevelDrivers/ADS7830.cs:41 | 0x84 plus 16 times a 3-bit select value has low nibble 4 and fits in a byte |
| ADS7830.CommandBits | src/LowLevelDrivers/ADS7830.cs:41 | every command has bits 7 and 2 set and bits 0, 1 and 3 clear |
| ADS7830.CommandInjective | src/LowLevelDrivers/ADS7830.cs:41 | channels 0..7 get the same command exactly when they are equal |
| ADS7830.CommandTable | src/LowLevelDrivers/ADS7830.cs:41 | the commands of channels 0..7 are 0x84, 0xC4, 0x94, 0xD4, 0xA4, 0xE4, 0xB4, 0xF4 |
| ADS7830.ChannelEightAliasesOne | src/LowLevelDrivers/ADS7830.cs:39-41 | channel 8 passes the range check and gets channel 1's command |
| ADS7830.Converter.constructor | src/LowLevelDrivers/ADS7830.cs:20-25 | a new converter is not disposed and has two distinct one-byte buffers |
| ADS7830.Converter.Dispose | src/LowLevelDrivers/ADS7830.cs:27-35 | the converter ends disposed; a second call changes nothing |
| ADS7830.Converter.ReadRaw | src/LowLevelDrivers/ADS7830.cs:37-47 | a disposed converter, then a channel outside 0..8, is rejected with nothing sent; otherwise exactly one write-then-read of `[Command(channel)]` is logged, and the answer byte is returned |
| ADS7830.Converter.Read | src/LowLevelDrivers/ADS7830.cs:49 | the same errors and transaction as `ReadRaw`; the result is the answer over 255, in [0, 1] |
| MMA8453.GetAddress | src/LowLevelDrivers/MMA8453.cs:16 | the address is a 7-bit address whose bits above bit 0 are those of 0x1C |
| MMA8453.AddressFormula | src/LowLevelDrivers/MMA8453.cs:16 | the address is 0x1D when `a0` is set and 0x1C otherwise |
| MMA8453.Combine | src/LowLevelDrivers/MMA8453.cs:57 | the sample is a 10-bit value whose top eight bits are the high byte |
| MMA8453.CombineFormula | src/LowLevelDrivers/MMA8453.cs:57 | `hi << 2 \| lo >> 6` is `4 * hi + lo / 64`, a value in 0..1023 |
| MMA8453.CombineReadsTopBitsOfLow | src/LowLevelDrivers/MMA8453.cs:57 | two low bytes give the same sample exactly when they agree in their top two bits |
| MMA8453.CombineOnto | src/LowLevelDrivers/MMA8453.cs:57 | every 10-bit value is the sample of some pair of bytes |
| MMA8453.ToSigned | src/LowLevelDrivers/MMA8453.cs:59-60 | a 10-bit value reads as a value in -512..511 that is negative exactly when bit 9 is set |
| MMA8453.SignCorrectionBijective | src/LowLevelDrivers/MMA8453.cs:59-60 | subtracting 1024 above 511 maps 0..1023 onto -512..511 and `FromSigned` undoes it |
| MMA8453.Normalize | src/LowLevelDrivers/MMA8453.cs:56-65 | an axis is its signed 10-bit sample over 256, within -2 g to 511/256 g |
| MMA8453.NormalizeExamples | src/LowLevelDrivers/MMA8453.cs:56-65 | samples 600 and 300 give -1.65625 g and 1.171875 g, whatever the low six bits |
| MMA8453.Axes | src/LowLevelDrivers/MMA8453.cs:51-53 | the three axes come from offsets 0, 2 and 4 and each lies in -2 g to 511/256 g |
| MMA8453.Accelerometer.constructor | src/LowLevelDrivers/MMA8453.cs:20-28 | construction writes `[0x2A, 0x01]`, and this is the only write; a fresh device's log then starts the initialised pattern |
| MMA8453.Accelerometer.Dispose | src/LowLevelDrivers/MMA8453.cs:30-38 | the driver ends disposed; a second call changes nothing |
| MMA8453.Accelerometer.GetAcceleration | src/LowLevelDrivers/MMA8453.cs:40-54 | a disposed driver is rejected with nothing sent; otherwise one burst read from register 0x01 is logged, the buffer holds the six answer bytes and the result is their axes; an initialised log stays initialised |
| I2c.Device.constructor | src/FezHat/FezHat.cs:183 | a device is opened at a fixed address with an empty log |
| I2c.Device.Write | src/LowLevelDrivers/MMA8453.cs:27 | a write appends one write-only transaction |
| I2c.Device.WriteRead | src/LowLevelDrivers/ADS7830.cs:44 | a write-then-read fills the buffer with the answer and appends one transaction |
| Gpio.Controller.constructor | src/FezHat/FezHat.cs:171 | a new controller has no open lines |
| Gpio.Controller.OpenPin | src/FezHat/FezHat.cs:194 | opening a line sets its direction and records the mode change |
| Gpio.Controller.SetPinMode | src/FezHat/FezHat.cs:210-214 | only the given line's direction changes, and the change is recorded |
| Gpio.Controller.GetPinMode | src/FezHat/FezHat.cs:257 | returns the line's direction |
| Gpio.Controller.Write | src/FezHat/FezHat.cs:218 | only the given line's level changes, and the write is recorded |
| Gpio.Controller.Read | src/FezHat/FezHat.cs:91 | an input line reads the level driven from outside; an output line reads back the level it drives |
| PCA9685.Pwm.constructor | src/FezHat/FezHat.cs:195 | a new controller has outputs disabled and every channel at duty 0 (an assumed start; see "## Left out") |
| PCA9685.Pwm.SetFrequency | src/FezHat/FezHat.cs:47-54 | the frequency, shared by all channels, changes; no channel's duty or ticks change |
| PCA9685.Pwm.SetOutputEnabled | src/FezHat/FezHat.cs:196 | only the output-enable flag changes |
| PCA9685.Pwm.SetDutyCycle | src/FezHat/FezHat.cs:244 | only the given channel's duty changes |
| PCA9685.Pwm.SetChannel | src/FezHat/FezHat.cs:472 | only the given channel's on and off ticks change |
| PCA9685.Pwm.Dispose | src/FezHat/FezHat.cs:146 | the controller ends disposed; its outputs keep their values (an assumption; see "## Left out") |
| GHI.IsPwmPin | src/FezHat/FezHat.cs:309-320 | every pin of the `PwmPin` enumeration is a channel of the PWM controller |
| GHI.IsAnalogPin | src/FezHat/FezHat.cs:293-304 | every pin of the `AnalogPin` enumeration is a converter input that `ReadRaw` accepts, and none is an onboard sensor's input (4 or 5) |
| GHI.DigitalLine | src/FezHat/FezHat.cs:255 | the two `DigitalPin` values (lines 325-330) map to distinct header lines, `DIO16` to line 16 and `DIO26` to line 26 |
| GHI.ChannelBindingsDisjoint | src/FezHat/FezHat.cs:223-230 | the ten channels bound to motors, LEDs and servos are PWM channels, pairwise distinct, and none is a header PWM pin |
| GHI.NamedColorsAreCorners | src/FezHat/FezHat.cs:364-399 | the eight predefined colors have every intensity off or full and are pairwise distinct: they are the corners of the color cube |
| GHI.ColorDutiesDetermineColor | src/FezHat/FezHat.cs:422-424 | two colors give the same three duty cycles exactly when they are equal |
| GHI.Temperature | src/FezHat/FezHat.cs:120 | a reading in [0, 1] gives a temperature between -450/19.5 and 2850/19.5 degrees |
| GHI.TemperatureMonotone | src/FezHat/FezHat.cs:120 | a higher reading means exactly a higher temperature; readings span -450/19.5 to 2850/19.5 degrees |
| GHI.PulseTicks | src/FezHat/FezHat.cs:504-507 | a pulse width in ticks is non-negative, and a pulse no longer than the period fits in the 4096-tick cycle |
| GHI.PulseTicksAt50 | src/FezHat/FezHat.cs:504-507 | at 50 Hz a pulse width of `w` microseconds becomes `w * 4096 / 20000` ticks |
| GHI.PulseTicksExample | src/FezHat/FezHat.cs:504-507 | 500 and 2400 microseconds become 102 and 491 ticks |
| GHI.PulseTicksMonotone | src/FezHat/FezHat.cs:504-507 | a longer pulse never takes fewer ticks |
| GHI.Scale | src/FezHat/FezHat.cs:509 | the scale times the angle range is the tick range; a non-decreasing tick range gives a non-negative scale |
| GHI.PositionTicks | src/FezHat/FezHat.cs:472 | a non-negative scale, offset and angle give a non-negative tick count, so below 65536 the `(ushort)` cast only drops the fraction |
| GHI.PositionTicksWithinPulseRange | src/FezHat/FezHat.cs:472 | with minimum angle 0 the position mapping meets both calibrated tick counts and stays between them |
| GHI.PositionTicksOvershoot | src/FezHat/FezHat.cs:509-510 | calibrating 500..2400 microseconds over 90..180 degrees and moving to 180 writes 880 ticks, beyond the 491 maximum |
| GHI.PositionTicksExceedMaximum | src/FezHat/FezHat.cs:509-510 | whenever the minimum angle is above 0, the maximum angle maps beyond the maximum pulse width before truncation |
| GHI.AnchoredTicksWithinPulseRange | src/FezHat/FezHat.cs:509-510 | the mapping anchored at the minimum angle meets both calibrated tick counts and stays between them |
| GHI.ReplaySnoc | src/FezHat/FezHat.cs:534-542 | replaying one more output event is applying it to the replayed terminal |
| GHI.SpeedEvents | src/FezHat/FezHat.cs:535-540 | a speed change makes four writes: duty 0 first, then two complementary direction writes with line 1 high exactly for a positive speed, then a non-negative duty that is 0 exactly for speed 0 |
| GHI.SpeedChangeStaysSafe | src/FezHat/FezHat.cs:534-542 | after each of the four writes of a speed change, the terminal has complementary lines or zero duty; at the end line 1 is high exactly for a positive speed, line 2 is its opposite and the duty is the magnitude |
| GHI.ReversalPassesThroughEqualLines | src/FezHat/FezHat.cs:537-538 | reversing a running motor passes through an instant with equal lines, both high towards a positive speed and both low towards a negative one, and the duty is 0 then |
| GHI.FirstTwoEvents | src/FezHat/FezHat.cs:535-537 | after the first two writes of a speed change the duty is 0, line 1 has its new level and line 2 still its old one |
| GHI.RgbLed.constructor | src/FezHat/FezHat.cs:428-434 | a new LED is black on its three channels |
| GHI.RgbLed.GetColor | src/FezHat/FezHat.cs:416-418 | returns the stored color |
| GHI.RgbLed.SetColor | src/FezHat/FezHat.cs:419-425 | stores the color and writes red, green and blue, in that order, as intensity over 255; no other channel changes |
| GHI.RgbLed.TurnOff | src/FezHat/FezHat.cs:439-443 | sets the three channels to 0 in order and keeps the stored color |
| GHI.Servo.constructor | src/FezHat/FezHat.cs:476-481 | a new servo is at position 0 and not calibrated |
| GHI.Servo.GetPosition | src/FezHat/FezHat.cs:463-465 | returns the stored position |
| GHI.Servo.SetPosition | src/FezHat/FezHat.cs:466-473 | before calibration it fails with an invalid-operation error, and outside the calibrated angles with an out-of-range error, with nothing changed; a calibrated, in-range angle succeeds, stores the position and writes on-tick 0 and off-tick `scale * value + offset`, truncated, to its own channel only; that off-tick is non-negative, and lies within the calibrated pulse ticks when the minimum angle is 0 |
| GHI.Servo.SetLimits | src/FezHat/FezHat.cs:490-513 | a negative argument fails with an out-of-range error, and an empty or inverted range with an argument error, before anything changes; valid limits succeed: the shared frequency is forced to 50 Hz (written only if it differed), and the offset and scale come from the pulse widths in ticks of that period |
| GHI.Motor.constructor | src/FezHat/FezHat.cs:551-564 | a new motor has speed 0, and both its direction lines become outputs |
| GHI.Motor.GetSpeed | src/FezHat/FezHat.cs:531-533 | returns the stored speed |
| GHI.Motor.SetSpeed | src/FezHat/FezHat.cs:534-543 | writes duty 0, line 1 high exactly for a positive speed, line 2 the opposite, then the magnitude as duty; ends with complementary lines and changes nothing else |
| GHI.Motor.Stop | src/FezHat/FezHat.cs:569-571 | sets the motor's duty to 0 and leaves direction and speed alone |
| GHI.Motor.Dispose | src/FezHat/FezHat.cs:577-586 | the motor ends disposed; a second call changes nothing |
| GHI.OpenSensors | src/FezHat/FezHat.cs:181-189 | the accelerometer is at 0x1C and its device has received exactly the one initialisation write; the converter is at 0x48 with nothing sent; both are live, on separate devices, with freshly allocated buffers |
| GHI.OpenPwm | src/FezHat/FezHat.cs:195-197 | the PWM controller has outputs enabled, runs at 1500 Hz, and every channel is off: duty 0, on-ticks 0 and off-ticks 0 |
| GHI.OpenHeaderLines | src/FezHat/FezHat.cs:198-202 | lines 16, 26, 24 and then 18 and 22 are opened as outputs; every other line is unchanged |
| GHI.SetHeaderModes | src/FezHat/FezHat.cs:210-212 | DIO16 and DIO26 become inputs and DIO24 an output; other lines are untouched |
| GHI.SetButtonModes | src/FezHat/FezHat.cs:213-214 | DIO18 and DIO22 become inputs; other lines are untouched |
| GHI.EnableMotors | src/FezHat/FezHat.cs:215-218 | line 12 becomes an output driven high; other lines are untouched |
| GHI.OpenDirectionLines | src/FezHat/FezHat.cs:219-222 | lines 27, 6, 23 and 5 are opened as outputs, in that order |
| GHI.SetUpHeader | src/FezHat/FezHat.cs:198-214 | the five header and button lines are opened; DIO16, DIO26, DIO18 and DIO22 end as inputs and DIO24 as an output; every other line is unchanged |
| GHI.SetUpMotorLines | src/FezHat/FezHat.cs:215-222 | line 12 ends as an output driven high and the four direction lines are open as outputs, driven low when they were not open before; every other line is unchanged |
| GHI.OpenControllers | src/FezHat/FezHat.cs:194-222 | line 13 is opened as an output and the PWM controller started first; then every board line opens, the header and button lines with their directions, the four direction lines as outputs driven low and the motor-enable line as an output driven high; every PWM channel is off (duty 0, ticks 0) |
| GHI.ConfigureLines | src/FezHat/FezHat.cs:198-222 | every board line opens; the header, button and motor-enable lines end with their directions and levels, the four direction lines as outputs (driven low when they were not open before), and line 13 is unchanged |
| GHI.BindActuators | src/FezHat/FezHat.cs:223-230 | motors on channels 14 and 13 with lines 27/23 and 6/5, LEDs on 1,0,2 and 4,3,15, servos on 9 and 10; the four direction lines become outputs at their old levels, and no other line changes |
| GHI.FezHat.Create | src/FezHat/FezHat.cs:170-233 | a valid board: PWM enabled at 1500 Hz; the header and button lines with their directions; lines 13, 27, 23, 6 and 5 outputs, with 27, 23, 6 and 5 driven low; motor enable an output driven high; every PWM channel off (duty 0, ticks 0); motor speeds 0, LEDs black, servos uncalibrated; the accelerometer has received exactly its initialisation write and nothing has been sent to the converter; sensors at their addresses; the board and every part of it freshly allocated |
| GHI.FezHat.GetPwmFrequency | src/FezHat/FezHat.cs:48-50 | returns the shared PWM frequency |
| GHI.FezHat.SetPwmFrequency | src/FezHat/FezHat.cs:51-53 | sets the shared frequency and keeps the board valid; no duty, tick, output-enable or disposed state changes |
| GHI.FezHat.GetDio24On | src/FezHat/FezHat.cs:90-92 | line 24 stays an output, so the LED reads on exactly when the line is driven high |
| GHI.FezHat.SetDio24On | src/FezHat/FezHat.cs:93-95 | only line 24's level changes |
| GHI.FezHat.IsDio18Pressed | src/FezHat/FezHat.cs:102 | line 18 stays an input, and the button is pressed exactly when the level sensed on it is low |
| GHI.FezHat.IsDio22Pressed | src/FezHat/FezHat.cs:108 | line 22 stays an input, and the button is pressed exactly when the level sensed on it is low |
| GHI.FezHat.GetLightLevel | src/FezHat/FezHat.cs:114 | a disposed converter gives the disposed error with nothing sent; otherwise one transaction reads converter channel 5 as a fraction in [0, 1] |
| GHI.FezHat.GetTemperature | src/FezHat/FezHat.cs:120 | a disposed converter gives the disposed error with nothing sent; otherwise one transaction reads converter channel 4 and converts it with `(f * 3300 - 450) / 19.5` |
| GHI.FezHat.GetAcceleration | src/FezHat/FezHat.cs:128 | the accelerometer's axes of one burst, or the disposed error |
| GHI.FezHat.SetPwmDutyCycle | src/FezHat/FezHat.cs:240-245 | a value outside [0, 1] is rejected, then a pin outside {5, 6, 7, 11, 12}, with nothing changed; a valid value on a header pin succeeds, and only that channel's duty changes |
| GHI.FezHat.WriteDigital | src/FezHat/FezHat.cs:252-261 | an undefined pin is rejected with nothing changed; otherwise the pin's line ends as an output at the given level, and its mode is written only if it was not already an output |
| GHI.DriveLine | src/FezHat/FezHat.cs:255-260 | the line ends as an output at the given level; a mode change is recorded only if it was not an output, then the write |
| GHI.FezHat.ReadDigital | src/FezHat/FezHat.cs:268-277 | an undefined pin is rejected with nothing changed; otherwise the pin's line ends as an input and the level sensed on it is returned, and its mode is written only if it was not already an input |
| GHI.FezHat.ReadAnalog | src/FezHat/FezHat.cs:284-288 | a pin outside {1, 2, 3, 6, 7} is rejected with nothing sent, and a disposed converter gives the disposed error; a header pin on a live converter succeeds, with that converter channel read as a fraction |
| SamplePi.CalibrateServo | src/samplepi/Program.cs:66-67 | `SetLimits(500, 2400, 0, 180)` on a servo of a live board passes and keeps the board valid; the frequency becomes 50 Hz, no channel changes, the servo spans 102..491 ticks, and every angle in 0..180 maps inside that range |
| SamplePi.StartBoard | src/samplepi/Program.cs:64-67 | the board is created and both servos calibrated to 500..2400 microseconds over 0..180 degrees: the board stays valid with every channel off, the frequency is 50 Hz, both servos span 102..491 ticks, and every accepted angle maps inside that range |
| GHI.FezHat.Dispose | src/FezHat/FezHat.cs:143-163 | the PWM controller, the converter, the accelerometer and both motors end disposed, and the board stays valid; PWM outputs, output enable and motor speeds keep their values; a second call changes nothing |

## Left out

- The PCA9685 driver's own source is not part of this model. The chip is
  abstract state: a frequency, an output-enable flag, and per-channel duty
  cycles and ticks. The prescaler, the register encoding and the
  output-enable line's level are not modelled.
- Bus and GPIO I/O is not performed. What a peripheral answers, and the
  level the outside world drives onto an input line, are method
  parameters. Transport failures are not modelled.
- The static I2C bus handle is not modelled: its lazy creation in `Create`
  and its release in `Dispose`.
- The SPI and I2C name constants are not modelled.
- Of the sample programs only the board start-up of src/samplepi/Program.cs
  is modelled (`SamplePi.StartBoard`). Its timer callback, its console
  output and the Meadow sample are not modelled, because they only print
  readings.
- `double` is modelled as an exact `real`. Rounding of the floating-point
  divisions is not modelled. Neither is NaN: a NaN argument passes the
  range checks at src/FezHat/FezHat.cs:241, 468 and 493-496, because every
  comparison with NaN is false, but a `real` is never NaN.
- `(int)` casts of non-negative values are modelled as `Floor`.
- `Motor.Speed` (src/FezHat/FezHat.cs:534-542) does not check that
  `|v| <= 1`. The model's `Pwm.SetDutyCycle` accepts any value, because
  whether the PCA9685 driver rejects values above 1 is not known here.
- PCA9685.Pwm.constructor: the controller is assumed to start with every
  channel off (duty 0, ticks 0) and outputs disabled, like the chip at
  power-on. The constructor's own code is not part of this model.
  `GHI.FezHat.Create` relies on this start: its motors are safe because
  the duty is 0 while both direction lines are low. The frequency before
  the first frequency write is left unspecified.
- PCA9685.Pwm.Dispose: two things are assumed about the PCA9685 driver,
  whose code is not part of this model. First, disposing keeps the
  frequency, the output-enable flag and every duty and tick;
  `GHI.FezHat.Dispose` states that these are kept, on the strength of
  this. Second, the writes `SetFrequency`, `SetOutputEnabled`,
  `SetDutyCycle` and `SetChannel` ignore `disposed`. So after
  `GHI.FezHat.Dispose`, `GHI.FezHat.SetPwmDutyCycle` still succeeds, and
  `GHI.Servo.SetPosition` and `GHI.Motor.SetSpeed` still change the chip.
  The two drivers whose code is modelled throw once disposed
  (src/LowLevelDrivers/ADS7830.cs:38, src/LowLevelDrivers/MMA8453.cs:41);
  whether the PCA9685 driver does is not known here.
- GHI.Servo.SetPosition: the `(ushort)` cast is modelled as `Floor` without
  a 16-bit wrap. C# leaves the conversion of an out-of-range `double` to
  `ushort` unspecified.
- GHI.Servo.SetLimits: the stored scale and offset go stale after a later
  frequency change. The model records this state, as the source does, but
  states no property about it.
- GHI.FezHat.Create: the direction lines are complementary only after the
  first `SetSpeed`. Until then both lines are low and every duty is 0, as
  `Create`'s contract states; the speed-change property covers `SetSpeed`
  only.
- GHI.FezHat.Create: the order of the trace events the helpers append is
  not stated in the helpers' contracts. Their effect on the lines, the PWM
  channels and the two sensor logs is stated.
- GHI.FezHat.Dispose: the GPIO lines stay open, because their release is
  commented out in the source.

## Findings

| source | as written | input that shows it | evidently intended | confidence | as-written member | corrected member |
|---|---|---|---|---|---|---|
| src/FezHat/FezHat.cs:472 | the off-tick is `scale * angle + offset`, with the offset set to the minimum pulse's ticks (lines 509-510) and no subtraction of the minimum angle | `SetLimits(500, 2400, 90, 180)` then `Position = 180` writes 880 ticks, where 491 is the calibrated maximum | `scale * (angle - minAngle) + offset`, which maps the minimum angle to the minimum pulse and the maximum angle to the maximum pulse | not executed | GHI.PositionTicksOvershoot | GHI.AnchoredTicksWithinPulseRange |

`GHI.PositionTicks` is the mapping as written, and `GHI.Servo.SetPosition`
writes it. `GHI.PositionTicksExceedMaximum` shows that, before truncation,
it overshoots the maximum for every minimum angle above 0.
`GHI.PositionTicksWithinPulseRange` shows that it is correct when the
minimum angle is 0. `GHI.AnchoredTicks` is the corrected mapping, and
`GHI.AnchoredTicksWithinPulseRange` proves that it meets both calibrated
pulse widths and stays between them.

=== FILE: ADS7830.dfy ===
/** The ADS7830 8-channel, 8-bit analog-to-digital converter. A sample is
  * one write-then-read transaction: a command byte selecting the channel,
  * answered by one conversion byte. */
module ADS7830 {
  import opened Bits
  import opened Errors
  import opened I2c

  /** The bus address: `0x48 | a0 | a1 << 1`, cast to a byte. */
  function GetAddress(a0: bool, a1: bool): (address: Byte)
    ensures address < 128 && address / 4 == 0x12
  {
    StrapBits(if a0 then 1 else 0, if a1 then 1 else 0);
    ToByte(BitOr(BitOr(0x48, if a0 then 1 else 0), if a1 then 2 else 0))
  }

  /** The straps land in bits 0 and 1, below the fixed part 0x48. */
  lemma StrapBits(b0: nat, b1: nat)
    requires b0 < 2 && b1 < 2
    ensures BitOr(BitOr(0x48, b0), 2 * b1) == 0x48 + b0 + 2 * b1
  {
    OrSplit(9, 0, 0, b0, 3);
    OrSplit(9, 0, b0, 2 * b1, 3);
    OrSplit(0, b1, b0, 0, 1);
  }

  /** The two strap inputs select one of 0x48..0x4B, a 7-bit address. */
  lemma AddressFormula(a0: bool, a1: bool)
    ensures GetAddress(a0, a1) == 0x48 + (if a0 then 1 else 0) + (if a1 then 2 else 0)
    ensures GetAddress(a0, a1) < 128
  {
    StrapBits(if a0 then 1 else 0, if a1 then 1 else 0);
  }

  /** The four strap settings give four distinct addresses. */
  lemma AddressesDistinct(a0: bool, a1: bool, b0: bool, b1: bool)
    ensures GetAddress(a0, a1) == GetAddress(b0, b1) <==> a0 == b0 && a1 == b1
  {
    AddressFormula(a0, a1);
    AddressFormula(b0, b1);
  }

  /** The channels `ReadRaw` accepts: 0 to 8 inclusive (the check is `channel > 8`). */
  predicate AcceptedChannel(channel: int)
  {
    0 <= channel <= 8
  }

  /** The channel-select field of the command: even channels select 0..3,
    * odd channels 4..7, the chip's single-ended input order. */
  function Select(channel: int): (sel: nat)
    requires AcceptedChannel(channel)
    ensures sel < 8
    ensures channel < 8 ==> ChannelOf(sel) == channel
  {
    if channel % 2 == 0 then channel / 2 else (channel - 1) / 2 + 4
  }

  /** The input a select value reads: the inverse of `Select` on 0..7. */
  function ChannelOf(sel: nat): (channel: nat)
    requires sel < 8
  {
    if sel < 4 then 2 * sel else 2 * (sel - 4) + 1
  }

  /** `Select` is a bijection from the channels 0..7 onto the select values 0..7. */
  lemma SelectRoundTrip(channel: int, sel: nat)
    requires 0 <= channel < 8 && sel < 8
    ensures Select(channel) < 8 && ChannelOf(Select(channel)) == channel
    ensures 0 <= ChannelOf(sel) < 8 && Select(ChannelOf(sel)) == sel
  {
  }

  /** The command byte `0x84 | Select(channel) << 4`: single-ended mode
    * (bit 7) with the internal reference off and the converter on (bit 2). */
  function Command(channel: int): (command: Byte)
    requires AcceptedChannel(channel)
    ensures 0x84 <= command <= 0xF4 && command % 16 == 4
  {
    CommandField(Select(channel));
    CommandNibbles(Select(channel));
    ToByte(BitOr(0x84, Shl(Select(channel), 4)))
  }

  /** The or never carries: the command is 0x84 plus sixteen times the select value. */
  lemma CommandFormula(channel: int)
    requires AcceptedChannel(channel)
    ensures Command(channel) == 0x84 + 16 * Select(channel)
  {
    CommandField(Select(channel));
  }

  /** The select field shifted above the mode bits does not overlap them. */
  lemma CommandField(sel: nat)
    requires sel < 8
    ensures BitOr(0x84, Shl(sel, 4)) == 0x84 + 16 * sel
  {
    assert Pow2(3) == 8 && Pow2(4) == 16;
    ShlIsProduct(8, 4);
    ShlIsProduct(1, 3);
    ShlIsProduct(0, 3);
    calc {
      BitOr(0x84, Shl(sel, 4));
      BitOr(Shl(8, 4) + 4, Shl(sel, 4) + 0);
      { OrSplit(8, sel, 4, 0, 4); }
      Shl(BitOr(8, sel), 4) + BitOr(4, 0);
      { OrSplit(1, 0, 0, sel, 3); }
      Shl(8 + sel, 4) + 4;
      { ShlIsProduct(8 + sel, 4); }
      0x84 + 16 * sel;
    }
  }

  /** The command with select value `sel` keeps 4 in its low nibble and
    * fits in a byte. */
  lemma CommandNibbles(sel: nat)
    requires sel < 8
    ensures 0x84 + 16 * sel <= 0xF4 && (0x84 + 16 * sel) % 16 == 4
  {
    assert 0x84 + 16 * sel == 16 * (8 + sel) + 4;
  }

  /** Every command has bits 7 and 2 set and bits 0, 1 and 3 clear. */
  lemma CommandBits(channel: int)
    requires AcceptedChannel(channel)
    ensures Bit(Command(channel), 7) && Bit(Command(channel), 2)
    ensures !Bit(Command(channel), 0) && !Bit(Command(channel), 1) && !Bit(Command(channel), 3)
  {
    var shifted := Shl(Select(channel), 4);
    CommandField(Select(channel));
    ModeBits();
    ShiftedLowBits(Select(channel));
    OrBit(0x84, shifted, 0);
    OrBit(0x84, shifted, 1);
    OrBit(0x84, shifted, 2);
    OrBit(0x84, shifted, 3);
    OrBit(0x84, shifted, 7);
  }

  /** The fixed part 0x84 of every command: bits 7 and 2 set, 0, 1 and 3 clear. */
  lemma ModeBits()
    ensures Bit(0x84, 7) && Bit(0x84, 2) && !Bit(0x84, 0) && !Bit(0x84, 1) && !Bit(0x84, 3)
  {
  }

  /** The select field, shifted into place, leaves bits 0 to 3 clear. */
  lemma ShiftedLowBits(sel: nat)
    ensures !Bit(Shl(sel, 4), 0) && !Bit(Shl(sel, 4), 1) && !Bit(Shl(sel, 4), 3)
  {
    ShlLowBitsClear(sel, 4, 0);
    ShlLowBitsClear(sel, 4, 1);
    ShlLowBitsClear(sel, 4, 3);
  }

  /** Distinct channels 0..7 get distinct command bytes. */
  lemma CommandInjective(c1: int, c2: int)
    requires 0 <= c1 < 8 && 0 <= c2 < 8
    ensures Command(c1) == Command(c2) <==> c1 == c2
  {
    CommandFormula(c1);
    CommandFormula(c2);
    SelectRoundTrip(c1, 0);
    SelectRoundTrip(c2, 0);
  }

  /** The command byte of each channel 0..7. */
  lemma CommandTable()
    ensures Command(0) == 0x84 && Command(1) == 0xC4 && Command(2) == 0x94 && Command(3) == 0xD4
    ensures Command(4) == 0xA4 && Command(5) == 0xE4 && Command(6) == 0xB4 && Command(7) == 0xF4
  {
    CommandFormula(0); CommandFormula(1); CommandFormula(2); CommandFormula(3);
    CommandFormula(4); CommandFormula(5); CommandFormula(6); CommandFormula(7);
  }

  /** Channel 8 passes the range check and samples the same input as channel 1. */
  lemma ChannelEightAliasesOne()
    ensures AcceptedChannel(8) && Command(8) == Command(1)
  {
    assert Select(8) == 4 && Select(1) == 4;
    CommandFormula(8);
    CommandFormula(1);
  }

  class Converter {
    const device: Device
    var disposed: bool
    const read: array<Byte>
    const write: array<Byte>

    ghost predicate Valid()
      reads this
    {
      read.Length == 1 && write.Length == 1 && read != write
    }

    constructor (device: Device)
      ensures Valid() && this.device == device && !disposed
      ensures fresh(read) && fresh(write)
    {
      this.device := device;
      disposed := false;
      read := new Byte[1];
      write := new Byte[1];
    }

    /** Releases the converter; a second call changes nothing. */
    method Dispose()
      modifies this
      ensures disposed
      ensures old(disposed) ==> unchanged(this)
    {
      if !disposed {
        disposed := true;
      }
    }

    /** Samples `channel`; `answer` is the byte the chip returns. */
    method ReadRaw(channel: int, answer: Byte) returns (r: Result<int>)
      requires Valid()
      modifies write, read, device
      ensures disposed ==> r == Err(ObjectDisposed)
      ensures !disposed && !AcceptedChannel(channel) ==> r == Err(ArgumentOutOfRange)
      ensures !disposed && AcceptedChannel(channel) ==> r.Ok?
      ensures r.Err? ==> device.log == old(device.log) && unchanged(read, write)
      ensures r.Ok? ==> !disposed && AcceptedChannel(channel) && r.value == answer
      ensures r.Ok? ==> write[..] == [Command(channel)] && read[..] == [answer]
      ensures r.Ok? ==> device.log == old(device.log) + [WriteThenRead([Command(channel)], [answer])]
    {
      if disposed {
        return Err(ObjectDisposed);
      }
      if channel > 8 || channel < 0 {
        return Err(ArgumentOutOfRange);
      }
      write[0] := ToByte(BitOr(0x84, Shl(if channel % 2 == 0 then channel / 2 else (channel - 1) / 2 + 4, 4)));
      device.WriteRead(write[..], read, [answer]);
      r := Ok(read[0]);
    }

    /** Samples `channel` as a fraction of full scale, in [0, 1]. */
    method Read(channel: int, answer: Byte) returns (r: Result<real>)
      requires Valid()
      modifies write, read, device
      ensures disposed ==> r == Err(ObjectDisposed)
      ensures !disposed && !AcceptedChannel(channel) ==> r == Err(ArgumentOutOfRange)
      ensures !disposed && AcceptedChannel(channel) ==> r.Ok?
      ensures r.Err? ==> device.log == old(device.log) && unchanged(read, write)
      ensures r.Ok? ==> !disposed && AcceptedChannel(channel)
      ensures r.Ok? ==> r.value == ByteFraction(answer) && 0.0 <= r.value <= 1.0
      ensures r.Ok? ==> device.log == old(device.log) + [WriteThenRead([Command(channel)], [answer])]
    {
      var raw := ReadRaw(channel, answer);
      match raw
      case Err(e) => r := Err(e);
      case Ok(v) => r := Ok(v as real / 255.0);
    }
  }
}

=== FILE: Bits.dfy ===
/** Integer bit arithmetic as C# performs it on bytes, which it promotes to
  * non-negative `int`s before shifting or or-ing them. Only non-negative
  * operands occur in the drivers, so a left shift is repeated doubling, a
  * right shift a floor division by a power of two, and `|` is defined bit
  * by bit on naturals. */
module Bits {

  /** An 8-bit unsigned value, as C#'s `byte`. */
  type Byte = x: int | 0 <= x < 256

  /** A 7-bit I2C peripheral address. */
  type Address = x: int | 0 <= x < 128

  function Pow2(k: nat): (p: nat)
    ensures p >= 1
  {
    if k == 0 then 1 else 2 * Pow2(k - 1)
  }

  /** `x << k` on a non-negative `int` (the values used never overflow 31
    * bits): `x` doubled `k` times. */
  function Shl(x: nat, k: nat): (r: nat)
  {
    if k == 0 then x else 2 * Shl(x, k - 1)
  }

  /** A left shift multiplies by a power of two. */
  lemma {:induction false} ShlIsProduct(x: nat, k: nat)
    ensures Shl(x, k) == x * Pow2(k)
  {
    if k > 0 {
      ShlIsProduct(x, k - 1);
      assert x * Pow2(k) == 2 * (x * Pow2(k - 1));
    }
  }

  /** `x >> k` on a non-negative `int`. */
  function Shr(x: nat, k: nat): (r: nat)
  {
    QuotientNonNegative(x, Pow2(k));
    x / Pow2(k)
  }

  /** A natural number divided by a positive one is a natural number. */
  lemma QuotientNonNegative(x: nat, p: nat)
    requires p >= 1
    ensures x / p >= 0
  {
  }

  /** The cast `(byte)x` of a non-negative `int`: keeps the low eight bits. */
  function ToByte(x: nat): (b: Byte)
    ensures x < 256 ==> b == x
  {
    x % 256
  }

  /** Bit `i` of `x` is set. */
  predicate Bit(x: nat, i: nat)
  {
    if i == 0 then x % 2 == 1 else Bit(x / 2, i - 1)
  }

  /** Bitwise or of two non-negative integers, one bit per step. */
  function BitOr(a: nat, b: nat): (r: nat)
    decreases a + b
  {
    if a == 0 then b
    else if b == 0 then a
    else 2 * BitOr(a / 2, b / 2) + (if a % 2 == 1 || b % 2 == 1 then 1 else 0)
  }

  /** The recursive step of `BitOr` holds also when an operand is zero. */
  lemma OrStep(x: nat, y: nat)
    ensures BitOr(x, y) == 2 * BitOr(x / 2, y / 2) + (if x % 2 == 1 || y % 2 == 1 then 1 else 0)
  {
    if x == 0 {
      assert BitOr(0, y / 2) == y / 2;
    } else if y == 0 {
      assert BitOr(x / 2, 0) == x / 2;
    }
  }

  /** `BitOr` agrees with the bit-wise definition of `|`: a bit of the result
    * is set exactly when it is set in either operand. */
  lemma {:induction false} OrBit(a: nat, b: nat, i: nat)
    ensures Bit(BitOr(a, b), i) <==> Bit(a, i) || Bit(b, i)
  {
    var m := BitOr(a / 2, b / 2);
    OrStep(a, b);
    if i > 0 {
      assert BitOr(a, b) / 2 == m;
      OrBit(a / 2, b / 2, i - 1);
    }
  }

  /** Or-ing two values splits at any bit boundary `k`: the high parts and
    * the low parts are or-ed separately. */
  lemma {:induction false} OrSplit(a: nat, b: nat, c: nat, d: nat, k: nat)
    requires c < Pow2(k) && d < Pow2(k)
    ensures BitOr(Shl(a, k) + c, Shl(b, k) + d) == Shl(BitOr(a, b), k) + BitOr(c, d)
  {
    if k == 0 {
      assert c == 0 && d == 0;
    } else {
      OrSplit(a, b, c / 2, d / 2, k - 1);
      OrLowBit(Shl(a, k - 1), Shl(b, k - 1), Shl(BitOr(a, b), k - 1), c, d);
    }
  }

  /** One more low bit below a split: if `m | n` splits into `h` and the
    * or of the halves of `c` and `d`, then `2m + c | 2n + d` splits into
    * `2h` and `c | d`. */
  lemma OrLowBit(m: nat, n: nat, h: nat, c: nat, d: nat)
    requires BitOr(m + c / 2, n + d / 2) == h + BitOr(c / 2, d / 2)
    ensures BitOr(2 * m + c, 2 * n + d) == 2 * h + BitOr(c, d)
  {
    OrHalves(m, n, c, d);
    OrStep(c, d);
  }

  /** One step of `OrSplit`: the lowest bit is or-ed on its own. */
  lemma OrHalves(m: nat, n: nat, c: nat, d: nat)
    ensures BitOr(2 * m + c, 2 * n + d)
         == 2 * BitOr(m + c / 2, n + d / 2) + (if c % 2 == 1 || d % 2 == 1 then 1 else 0)
  {
    assert (2 * m + c) / 2 == m + c / 2 && (2 * m + c) % 2 == c % 2;
    assert (2 * n + d) / 2 == n + d / 2 && (2 * n + d) % 2 == d % 2;
    OrStep(2 * m + c, 2 * n + d);
  }

  /** Shifting zero gives zero. */
  lemma {:induction false} ShlZero(k: nat)
    ensures Shl(0, k) == 0
  {
    if k > 0 {
      ShlZero(k - 1);
    }
  }

  /** When the right operand fits below bit `k`, `(a << k) | b` is `a * 2^k + b`. */
  lemma ShlOr(a: nat, b: nat, k: nat)
    requires b < Pow2(k)
    ensures BitOr(Shl(a, k), b) == a * Pow2(k) + b
  {
    OrSplit(a, 0, 0, b, k);
    ShlZero(k);
    ShlIsProduct(a, k);
    assert BitOr(a, 0) == a && BitOr(0, b) == b;
  }

  /** Shifting left by `k` leaves the low `k` bits clear. */
  lemma {:induction false} ShlLowBitsClear(x: nat, k: nat, i: nat)
    requires i < k
    ensures !Bit(Shl(x, k), i)
  {
    var half := Shl(x, k - 1);
    assert Shl(x, k) == 2 * half;
    if i > 0 {
      assert (2 * half) / 2 == half;
      ShlLowBitsClear(x, k - 1, i - 1);
    }
  }

  /** `b / 255.0`: a byte as a fraction of full scale. */
  function ByteFraction(b: Byte): (f: real)
    ensures 0.0 <= f <= 1.0
    ensures f == 0.0 <==> b == 0
    ensures f == 1.0 <==> b == 255
  {
    b as real / 255.0
  }

  /** The fraction preserves the order of bytes in both directions. */
  lemma ByteFractionMonotone(a: Byte, b: Byte)
    ensures a <= b <==> ByteFraction(a) <= ByteFraction(b)
  {
  }
}

=== FILE: Errors.dfy ===
/** The exceptions the drivers throw, as values. */
module Errors {

  /** One constructor per C# exception type the drivers raise. */
  datatype Error =
    | ObjectDisposed      // ObjectDisposedException: the driver was released
    | ArgumentOutOfRange  // ArgumentOutOfRangeException: a value outside its range
    | Argument            // ArgumentException: an undefined pin or an inverted pair
    | InvalidOperation    // InvalidOperationException: the call is not valid yet

  /** The outcome of an operation that returns a value or throws. */
  datatype Result<T> = Ok(value: T) | Err(error: Error)

  /** The outcome of an operation that returns nothing or throws. */
  datatype Outcome = Pass | Fail(error: Error)
}

=== FILE: FezHat.dfy ===
/** The FEZ HAT board: the PWM controller, the analog converter, the
  * accelerometer and the GPIO lines, composed into motors, servos, RGB
  * LEDs, buttons and sensor readers bound to fixed channels and lines. */
module GHI {
  import opened Bits
  import opened Errors
  import opened Signals
  import opened PCA9685
  import Gpio
  import I2c
  import ADS7830
  import MMA8453

  // ---------------------------------------------------------------------
  // Pins and channels

  /** The `PwmPin` enumeration: the PWM channels exposed on the header,
    * each a channel of the controller. */
  predicate IsPwmPin(pin: int)
    ensures IsPwmPin(pin) ==> IsChannel(pin)
  {
    pin in {5, 6, 7, 11, 12}
  }

  /** The `AnalogPin` enumeration: the converter inputs exposed on the
    * header, none of them an onboard sensor's input. */
  predicate IsAnalogPin(pin: int)
    ensures IsAnalogPin(pin) ==> ADS7830.AcceptedChannel(pin) && pin != TemperatureChannel && pin != LightChannel
  {
    pin in {1, 2, 3, 6, 7}
  }

  /** The `DigitalPin` enumeration: `DIO16` is 0 and `DIO26` is 1. */
  const DIO16 := 0
  const DIO26 := 1

  predicate IsDigitalPin(pin: int)
  {
    pin == DIO16 || pin == DIO26
  }

  /** The GPIO lines the board opens. */
  const Dio16Line := 16
  const Dio26Line := 26
  const Dio24Line := 24
  const Dio18Line := 18
  const Dio22Line := 22
  const MotorEnableLine := 12
  const PwmOutputEnableLine := 13
  const MotorADirection1 := 27
  const MotorADirection2 := 23
  const MotorBDirection1 := 6
  const MotorBDirection2 := 5

  /** Every line the board opens. */
  const BoardLines: set<nat> := {Dio16Line, Dio26Line, Dio24Line, Dio18Line, Dio22Line, MotorEnableLine,
                                 PwmOutputEnableLine, MotorADirection1, MotorADirection2,
                                 MotorBDirection1, MotorBDirection2}

  /** The GPIO line behind a digital header pin: each pin has its own
    * header line. */
  function DigitalLine(pin: int): (line: nat)
    requires IsDigitalPin(pin)
    ensures line in {Dio16Line, Dio26Line} && (line == Dio16Line <==> pin == DIO16)
  {
    if pin == DIO16 then Dio16Line else Dio26Line
  }

  /** The converter inputs of the onboard sensors. */
  const TemperatureChannel := 4
  const LightChannel := 5

  /** The PWM channels the board binds to its actuators: motor A, motor B,
    * LED D2 (red, green, blue), LED D3 (red, green, blue), servo S1, servo S2. */
  const MotorAChannel := 14
  const MotorBChannel := 13
  const D2Channels := (1, 0, 2)
  const D3Channels := (4, 3, 15)
  const S1Channel := 9
  const S2Channel := 10

  function BoundChannels(): (channels: seq<int>)
  {
    [MotorAChannel, MotorBChannel, D2Channels.0, D2Channels.1, D2Channels.2,
     D3Channels.0, D3Channels.1, D3Channels.2, S1Channel, S2Channel]
  }

  /** The bound channels are real PWM channels, pairwise distinct, and none
    * of them is exposed as a header PWM pin. */
  lemma ChannelBindingsDisjoint()
    ensures forall i | 0 <= i < |BoundChannels()| :: IsChannel(BoundChannels()[i])
    ensures forall i | 0 <= i < |BoundChannels()| :: !IsPwmPin(BoundChannels()[i])
    ensures forall i, j | 0 <= i < j < |BoundChannels()| :: BoundChannels()[i] != BoundChannels()[j]
    ensures forall pin | IsPwmPin(pin) :: IsChannel(pin)
  {
  }

  // ---------------------------------------------------------------------
  // Colors

  /** A color of the onboard LEDs: red, green and blue intensities. */
  datatype Color = Color(r: Byte, g: Byte, b: Byte)

  const Red := Color(255, 0, 0)
  const Green := Color(0, 255, 0)
  const Blue := Color(0, 0, 255)
  const Cyan := Color(0, 255, 255)
  const Magenta := Color(255, 0, 255)
  const Yellow := Color(255, 255, 0)
  const White := Color(255, 255, 255)
  const Black := Color(0, 0, 0)

  /** The predefined colors, in the order the source declares them. */
  const NamedColors := [Red, Green, Blue, Cyan, Magenta, Yellow, White, Black]

  /** The eight predefined colors are the eight corners of the color cube:
    * every intensity is off or full, and no two colors coincide. */
  lemma NamedColorsAreCorners()
    ensures forall i | 0 <= i < |NamedColors| ::
      NamedColors[i].r in {0, 255} && NamedColors[i].g in {0, 255} && NamedColors[i].b in {0, 255}
    ensures forall i, j | 0 <= i < j < |NamedColors| :: NamedColors[i] != NamedColors[j]
  {
  }

  /** The three duty cycles that show a color determine it. */
  lemma ColorDutiesDetermineColor(c1: Color, c2: Color)
    ensures (ByteFraction(c1.r) == ByteFraction(c2.r) && ByteFraction(c1.g) == ByteFraction(c2.g)
             && ByteFraction(c1.b) == ByteFraction(c2.b)) <==> c1 == c2
  {
  }

  // ---------------------------------------------------------------------
  // Onboard sensors

  /** The temperature in degrees Celsius for a reading of the temperature
    * sensor's channel, given as a fraction of full scale. */
  function Temperature(fraction: real): (celsius: real)
    ensures 0.0 <= fraction <= 1.0 ==> -450.0 / 19.5 <= celsius <= 2850.0 / 19.5
  {
    (fraction * 3300.0 - 450.0) / 19.5
  }

  /** A higher raw reading always means a higher temperature, and the
    * readings span -450/19.5 to 2850/19.5 degrees. */
  lemma TemperatureMonotone(a: Byte, b: Byte)
    ensures a < b <==> Temperature(ByteFraction(a)) < Temperature(ByteFraction(b))
    ensures -450.0 / 19.5 <= Temperature(ByteFraction(a)) <= 2850.0 / 19.5
  {
  }

  // ---------------------------------------------------------------------
  // Servo arithmetic

  /** The refresh rate `SetLimits` forces on the PWM controller. */
  const ServoFrequency := 50

  /** `(int)(pulseWidth / period * 4096.0)` with `period = 1000000.0 / frequency`:
    * a pulse width in microseconds as whole ticks of a 4096-tick period. */
  function PulseTicks(pulseWidth: nat, frequency: int): (ticks: int)
    requires frequency > 0
    ensures 0 <= ticks
    ensures pulseWidth * frequency <= 1000000 ==> ticks <= 4096
  {
    var period := 1000000.0 / frequency as real;
    (pulseWidth as real / period * 4096.0).Floor
  }

  /** At 50 Hz (a 20000 microsecond period) the truncation is integer division. */
  lemma PulseTicksAt50(pulseWidth: nat)
    ensures PulseTicks(pulseWidth, ServoFrequency) == pulseWidth * 4096 / 20000
  {
    var q, rem := pulseWidth * 4096 / 20000, pulseWidth * 4096 % 20000;
    assert pulseWidth * 4096 == q * 20000 + rem;
    var x := pulseWidth as real / (1000000.0 / 50.0) * 4096.0;
    assert x == q as real + rem as real / 20000.0;
  }

  /** The calibration 500..2400 microseconds gives 102 and 491 ticks. */
  lemma PulseTicksExample()
    ensures PulseTicks(500, ServoFrequency) == 102 && PulseTicks(2400, ServoFrequency) == 491
  {
    PulseTicksAt50(500);
    PulseTicksAt50(2400);
  }

  /** A longer pulse never takes fewer ticks. */
  lemma PulseTicksMonotone(a: nat, b: nat)
    requires a <= b
    ensures 0 <= PulseTicks(a, ServoFrequency) <= PulseTicks(b, ServoFrequency)
  {
    PulseTicksAt50(a);
    PulseTicksAt50(b);
    assert a * 4096 <= b * 4096;
  }

  /** Ticks per unit of angle between the two calibration points. */
  function Scale(minTicks: int, maxTicks: int, minAngle: real, maxAngle: real): (ticksPerUnit: real)
    requires minAngle < maxAngle
    ensures ticksPerUnit * (maxAngle - minAngle) == (maxTicks - minTicks) as real
    ensures minTicks <= maxTicks ==> 0.0 <= ticksPerUnit
  {
    (maxTicks - minTicks) as real / (maxAngle - minAngle)
  }

  /** `(ushort)(scale * angle + offset)`: the off-tick of a position, truncated. */
  function PositionTicks(scale: real, offset: real, angle: real): (ticks: int)
    ensures 0.0 <= scale && 0.0 <= angle && 0.0 <= offset ==> 0 <= ticks
  {
    (scale * angle + offset).Floor
  }

  /** With a minimum angle of 0 the mapping reaches exactly the two
    * calibrated pulse widths at the ends and stays between them. */
  lemma PositionTicksWithinPulseRange(minTicks: int, maxTicks: int, maxAngle: real, angle: real)
    requires minTicks <= maxTicks && 0.0 < maxAngle && 0.0 <= angle <= maxAngle
    ensures var ticks := PositionTicks(Scale(minTicks, maxTicks, 0.0, maxAngle), minTicks as real, angle);
      minTicks <= ticks <= maxTicks
    ensures PositionTicks(Scale(minTicks, maxTicks, 0.0, maxAngle), minTicks as real, 0.0) == minTicks
    ensures PositionTicks(Scale(minTicks, maxTicks, 0.0, maxAngle), minTicks as real, maxAngle) == maxTicks
  {
    var scale := Scale(minTicks, maxTicks, 0.0, maxAngle);
    assert scale * maxAngle == (maxTicks - minTicks) as real;
    ScaleMonotone(scale, angle, maxAngle);
  }

  lemma ScaleMonotone(scale: real, a: real, b: real)
    requires 0.0 <= scale && 0.0 <= a <= b
    ensures 0.0 <= scale * a <= scale * b
  {
  }

  /** As written, the offset is not anchored at the minimum angle: with a
    * minimum angle above 0 the maximum angle overshoots the maximum pulse
    * width. Calibrating 500..2400 microseconds over 90..180 degrees and
    * moving to 180 degrees writes 880 ticks where 491 is the maximum. */
  lemma PositionTicksOvershoot()
    ensures PositionTicks(Scale(102, 491, 90.0, 180.0), 102.0, 180.0) == 880
  {
    assert Scale(102, 491, 90.0, 180.0) * 180.0 == 778.0;
  }

  /** At the maximum angle the as-written mapping exceeds the maximum pulse
    * width whenever the minimum angle is above 0. */
  lemma PositionTicksExceedMaximum(minTicks: int, maxTicks: int, minAngle: real, maxAngle: real)
    requires minTicks < maxTicks && 0.0 < minAngle < maxAngle
    ensures Scale(minTicks, maxTicks, minAngle, maxAngle) * maxAngle + minTicks as real > maxTicks as real
  {
    var scale := Scale(minTicks, maxTicks, minAngle, maxAngle);
    assert scale * (maxAngle - minAngle) == (maxTicks - minTicks) as real;
    assert scale > 0.0;
    assert scale * maxAngle == scale * (maxAngle - minAngle) + scale * minAngle;
  }

  /** The mapping anchored at the minimum angle: the evident intent of the
    * calibration, and the one whose range matches the pulse widths. */
  function AnchoredTicks(scale: real, offset: real, minAngle: real, angle: real): (ticks: int)
  {
    (scale * (angle - minAngle) + offset).Floor
  }

  /** The anchored mapping meets both calibrated pulse widths exactly and
    * stays between them for every angle in range. */
  lemma AnchoredTicksWithinPulseRange(minTicks: int, maxTicks: int, minAngle: real, maxAngle: real, angle: real)
    requires minTicks <= maxTicks && 0.0 <= minAngle < maxAngle && minAngle <= angle <= maxAngle
    ensures var ticks := AnchoredTicks(Scale(minTicks, maxTicks, minAngle, maxAngle), minTicks as real, minAngle, angle);
      minTicks <= ticks <= maxTicks
    ensures AnchoredTicks(Scale(minTicks, maxTicks, minAngle, maxAngle), minTicks as real, minAngle, minAngle) == minTicks
    ensures AnchoredTicks(Scale(minTicks, maxTicks, minAngle, maxAngle), minTicks as real, minAngle, maxAngle) == maxTicks
  {
    var scale := Scale(minTicks, maxTicks, minAngle, maxAngle);
    assert scale * (maxAngle - minAngle) == (maxTicks - minTicks) as real;
    ScaleMonotone(scale, angle - minAngle, maxAngle - minAngle);
  }

  // ---------------------------------------------------------------------
  // Motor terminals

  /** What one motor terminal shows at an instant: its channel's duty cycle
    * and the levels of its two direction lines. */
  datatype Terminal = Terminal(duty: real, line1: bool, line2: bool)

  /** The terminal never drives an ambiguous direction: either the lines
    * are complementary or the terminal is unpowered. */
  predicate Safe(t: Terminal)
  {
    t.line1 != t.line2 || t.duty == 0.0
  }

  /** The effect of one hardware event on the terminal wired to `channel`,
    * `line1` and `line2`. */
  function Apply(t: Terminal, e: Event, channel: int, line1: nat, line2: nat): (after: Terminal)
  {
    match e
    case DutyWrite(c, v) => if c == channel then t.(duty := v) else t
    case LineWrite(p, h) =>
      if p == line1 then t.(line1 := h) else if p == line2 then t.(line2 := h) else t
    case _ => t
  }

  /** The terminal after a sequence of events, oldest first. */
  function Replay(t: Terminal, events: seq<Event>, channel: int, line1: nat, line2: nat): (after: Terminal)
    decreases |events|
  {
    if events == [] then t
    else Replay(Apply(t, events[0], channel, line1, line2), events[1..], channel, line1, line2)
  }

  function Abs(v: real): (magnitude: real)
  {
    if v < 0.0 then -v else v
  }

  /** The writes `Motor.Speed = v` makes, in order: duty 0, direction 1,
    * direction 2, then the magnitude as duty. */
  function SpeedEvents(channel: int, line1: nat, line2: nat, v: real): (events: seq<Event>)
    ensures |events| == 4 && events[0] == DutyWrite(channel, 0.0)
    ensures events[1].LineWrite? && events[2].LineWrite? && events[1].level != events[2].level
    ensures events[1].level <==> v > 0.0
    ensures events[3].DutyWrite? && 0.0 <= events[3].duty && (events[3].duty == 0.0 <==> v == 0.0)
  {
    [DutyWrite(channel, 0.0), LineWrite(line1, v > 0.0), LineWrite(line2, !(v > 0.0)), DutyWrite(channel, Abs(v))]
  }

  /** Replaying a prefix and then one more event is applying that event. */
  lemma {:induction false} ReplaySnoc(t: Terminal, events: seq<Event>, e: Event, channel: int, line1: nat, line2: nat)
    ensures Replay(t, events + [e], channel, line1, line2)
         == Apply(Replay(t, events, channel, line1, line2), e, channel, line1, line2)
    decreases |events|
  {
    if events != [] {
      assert (events + [e])[1..] == events[1..] + [e];
      ReplaySnoc(Apply(t, events[0], channel, line1, line2), events[1..], e, channel, line1, line2);
    }
  }

  /** At every instant of a speed change the terminal is safe, provided it
    * was safe before; afterwards the lines are complementary, line 1 high
    * exactly for a positive speed, and the duty is the speed's magnitude. */
  lemma {:induction false} SpeedChangeStaysSafe(t: Terminal, channel: int, line1: nat, line2: nat, v: real, k: nat)
    requires Safe(t) && line1 != line2 && k <= 4
    ensures Safe(Replay(t, SpeedEvents(channel, line1, line2, v)[..k], channel, line1, line2))
    ensures var after := Replay(t, SpeedEvents(channel, line1, line2, v), channel, line1, line2);
      after.line1 == (v > 0.0) && after.line2 == !(v > 0.0) && after.duty == Abs(v)
  {
    var events := SpeedEvents(channel, line1, line2, v);
    var t1 := Apply(t, events[0], channel, line1, line2);
    var t2 := Apply(t1, events[1], channel, line1, line2);
    var t3 := Apply(t2, events[2], channel, line1, line2);
    var t4 := Apply(t3, events[3], channel, line1, line2);
    assert events[..0] == [];
    ReplaySnoc(t, events[..0], events[0], channel, line1, line2);
    assert events[..1] == events[..0] + [events[0]];
    ReplaySnoc(t, events[..1], events[1], channel, line1, line2);
    assert events[..2] == events[..1] + [events[1]];
    ReplaySnoc(t, events[..2], events[2], channel, line1, line2);
    assert events[..3] == events[..2] + [events[2]];
    ReplaySnoc(t, events[..3], events[3], channel, line1, line2);
    assert events[..4] == events[..3] + [events[3]] == events;
    assert Replay(t, events, channel, line1, line2) == t4;
  }

  /** Reversing a running motor passes through an instant where both
    * direction lines are equal: both high when it turns to a positive
    * speed, both low when it turns to a negative one. The duty cycle is 0
    * at that instant. */
  lemma ReversalPassesThroughEqualLines(channel: int, line1: nat, line2: nat)
    requires line1 != line2
    ensures var t := Replay(Terminal(0.5, false, true), SpeedEvents(channel, line1, line2, 1.0)[..2], channel, line1, line2);
      t.line1 && t.line2 && t.duty == 0.0
    ensures var t := Replay(Terminal(0.5, true, false), SpeedEvents(channel, line1, line2, -1.0)[..2], channel, line1, line2);
      !t.line1 && !t.line2 && t.duty == 0.0
  {
    FirstTwoEvents(Terminal(0.5, false, true), channel, line1, line2, 1.0);
    FirstTwoEvents(Terminal(0.5, true, false), channel, line1, line2, -1.0);
  }

  /** Replaying the first two writes of a speed change: the duty is cut,
    * then line 1 takes its new level while line 2 keeps its old one. */
  lemma FirstTwoEvents(t: Terminal, channel: int, line1: nat, line2: nat, v: real)
    requires line1 != line2
    ensures Replay(t, SpeedEvents(channel, line1, line2, v)[..2], channel, line1, line2)
         == Terminal(0.0, v > 0.0, t.line2)
  {
    var events := SpeedEvents(channel, line1, line2, v);
    ReplaySnoc(t, events[..1], events[1], channel, line1, line2);
    assert events[..2] == events[..1] + [events[1]];
    ReplaySnoc(t, events[..0], events[0], channel, line1, line2);
    assert events[..1] == events[..0] + [events[0]];
  }

  // ---------------------------------------------------------------------
  // Actuators

  /** An onboard RGB LED driven by three PWM channels. */
  class RgbLed {
    const pwm: Pwm
    var color: Color
    const redChannel: int
    const greenChannel: int
    const blueChannel: int

    predicate Valid()
    {
      IsChannel(redChannel) && IsChannel(greenChannel) && IsChannel(blueChannel)
    }

    constructor (pwm: Pwm, redChannel: int, greenChannel: int, blueChannel: int)
      requires IsChannel(redChannel) && IsChannel(greenChannel) && IsChannel(blueChannel)
      ensures Valid() && this.pwm == pwm && color == Black
      ensures this.redChannel == redChannel && this.greenChannel == greenChannel && this.blueChannel == blueChannel
    {
      color := Black;
      this.pwm := pwm;
      this.redChannel := redChannel;
      this.greenChannel := greenChannel;
      this.blueChannel := blueChannel;
    }

    method GetColor() returns (c: Color)
      ensures c == color
    {
      c := color;
    }

    /** Stores the color and sets each channel to its intensity over 255. */
    method SetColor(c: Color)
      requires Valid() && pwm.Valid()
      modifies this, pwm, pwm.trace
      ensures pwm.Valid() && color == c
      ensures pwm.duty == old(pwm.duty)[redChannel := ByteFraction(c.r)][greenChannel := ByteFraction(c.g)][blueChannel := ByteFraction(c.b)]
      ensures pwm.frequency == old(pwm.frequency) && pwm.outputEnabled == old(pwm.outputEnabled) && pwm.disposed == old(pwm.disposed)
      ensures pwm.onTicks == old(pwm.onTicks) && pwm.offTicks == old(pwm.offTicks)
      ensures pwm.trace.events == old(pwm.trace.events)
        + [DutyWrite(redChannel, ByteFraction(c.r)), DutyWrite(greenChannel, ByteFraction(c.g)), DutyWrite(blueChannel, ByteFraction(c.b))]
    {
      color := c;
      pwm.SetDutyCycle(redChannel, c.r as real / 255.0);
      pwm.SetDutyCycle(greenChannel, c.g as real / 255.0);
      pwm.SetDutyCycle(blueChannel, c.b as real / 255.0);
    }

    /** Sets all three channels to 0; the stored color is left as it was. */
    method TurnOff()
      requires Valid() && pwm.Valid()
      modifies pwm, pwm.trace
      ensures pwm.Valid() && color == old(color)
      ensures pwm.duty == old(pwm.duty)[redChannel := 0.0][greenChannel := 0.0][blueChannel := 0.0]
      ensures pwm.frequency == old(pwm.frequency) && pwm.outputEnabled == old(pwm.outputEnabled) && pwm.disposed == old(pwm.disposed)
      ensures pwm.onTicks == old(pwm.onTicks) && pwm.offTicks == old(pwm.offTicks)
      ensures pwm.trace.events == old(pwm.trace.events)
        + [DutyWrite(redChannel, 0.0), DutyWrite(greenChannel, 0.0), DutyWrite(blueChannel, 0.0)]
    {
      pwm.SetDutyCycle(redChannel, 0.0);
      pwm.SetDutyCycle(greenChannel, 0.0);
      pwm.SetDutyCycle(blueChannel, 0.0);
    }
  }

  /** An onboard servo header on one PWM channel. */
  class Servo {
    const pwm: Pwm
    const channel: int
    var position: real
    var minAngle: real
    var maxAngle: real
    var scale: real
    var offset: real
    var limitsSet: bool
    /** The calibrated pulse widths, in ticks. */
    ghost var minTicks: int
    ghost var maxTicks: int

    /** Once calibrated, the angles are ordered and non-negative, the
      * offset is the minimum pulse in ticks and the scale is the tick range
      * over the angle range. */
    ghost predicate Valid()
      reads this
    {
      IsChannel(channel) &&
      (limitsSet ==> 0.0 <= minAngle < maxAngle && 0 <= minTicks <= maxTicks && 0.0 <= scale
                     && offset == minTicks as real && scale == Scale(minTicks, maxTicks, minAngle, maxAngle))
    }

    constructor (pwm: Pwm, channel: int)
      requires IsChannel(channel)
      ensures Valid() && this.pwm == pwm && this.channel == channel
      ensures position == 0.0 && !limitsSet
    {
      this.pwm := pwm;
      this.channel := channel;
      position := 0.0;
      limitsSet := false;
      minAngle, maxAngle, scale, offset := 0.0, 0.0, 0.0, 0.0;
      minTicks, maxTicks := 0, 0;
    }

    method GetPosition() returns (p: real)
      ensures p == position
    {
      p := position;
    }

    /** Moves the servo: rejected before calibration and outside the
      * calibrated angles, with nothing changed; otherwise writes on-tick 0
      * and the off-tick `scale * value + offset` to this servo's channel
      * only. The off-tick stays within the calibrated pulse widths when the
      * minimum angle is 0; above 0 it can overshoot (see
      * `PositionTicksOvershoot`). */
    method SetPosition(value: real) returns (o: Outcome)
      requires Valid() && pwm.Valid()
      modifies this, pwm, pwm.trace
      ensures Valid() && pwm.Valid()
      ensures !old(limitsSet) ==> o == Fail(InvalidOperation)
      ensures old(limitsSet) && !(old(minAngle) <= value <= old(maxAngle)) ==> o == Fail(ArgumentOutOfRange)
      ensures old(limitsSet) && old(minAngle) <= value <= old(maxAngle) ==> o == Pass
      ensures o.Fail? ==> unchanged(this) && unchanged(pwm) && pwm.trace.events == old(pwm.trace.events)
      ensures o.Pass? ==> position == value
      ensures o.Pass? ==> limitsSet && minAngle == old(minAngle) && maxAngle == old(maxAngle)
                          && scale == old(scale) && offset == old(offset)
                          && minTicks == old(minTicks) && maxTicks == old(maxTicks)
      ensures o.Pass? ==> pwm.onTicks == old(pwm.onTicks)[channel := 0]
                          && pwm.offTicks == old(pwm.offTicks)[channel := PositionTicks(scale, offset, value)]
      ensures o.Pass? ==> 0 <= PositionTicks(scale, offset, value)
      ensures o.Pass? && minAngle == 0.0 ==> minTicks <= PositionTicks(scale, offset, value) <= maxTicks
      ensures o.Pass? ==> pwm.frequency == old(pwm.frequency) && pwm.duty == old(pwm.duty)
                          && pwm.outputEnabled == old(pwm.outputEnabled) && pwm.disposed == old(pwm.disposed)
      ensures o.Pass? ==> pwm.trace.events == old(pwm.trace.events) + [ChannelWrite(channel, 0, PositionTicks(scale, offset, value))]
    {
      if !limitsSet {
        return Fail(InvalidOperation);
      }
      if value < minAngle || value > maxAngle {
        return Fail(ArgumentOutOfRange);
      }
      position := value;
      ScaleMonotone(scale, 0.0, value);
      if minAngle == 0.0 {
        PositionTicksWithinPulseRange(minTicks, maxTicks, maxAngle, value);
      }
      var ticks := (scale * value + offset).Floor;
      assert ticks == PositionTicks(scale, offset, value);
      pwm.SetChannel(channel, 0x0000, ticks);
      o := Pass;
    }

    /** Calibrates the servo: rejects a negative argument or an inverted or
      * empty range before changing anything; otherwise forces the shared
      * PWM frequency to 50 Hz and maps pulse widths to ticks of that period. */
    method SetLimits(minimumPulseWidth: int, maximumPulseWidth: int, minimumAngle: real, maximumAngle: real) returns (o: Outcome)
      requires Valid() && pwm.Valid()
      modifies this, pwm, pwm.trace
      ensures Valid() && pwm.Valid()
      ensures minimumPulseWidth < 0 || maximumPulseWidth < 0 || minimumAngle < 0.0 || maximumAngle < 0.0
              ==> o == Fail(ArgumentOutOfRange)
      ensures 0 <= minimumPulseWidth && 0 <= maximumPulseWidth && 0.0 <= minimumAngle && 0.0 <= maximumAngle
              && (minimumPulseWidth >= maximumPulseWidth || minimumAngle >= maximumAngle)
              ==> o == Fail(Argument)
      ensures o.Fail? ==> unchanged(this) && unchanged(pwm) && pwm.trace.events == old(pwm.trace.events)
      ensures 0 <= minimumPulseWidth < maximumPulseWidth && 0.0 <= minimumAngle < maximumAngle ==> o == Pass
      ensures o.Pass? ==> pwm.frequency == ServoFrequency && limitsSet
      ensures o.Pass? ==> pwm.trace.events == old(pwm.trace.events)
                          + (if old(pwm.frequency) != ServoFrequency then [FrequencyWrite(ServoFrequency)] else [])
      ensures o.Pass? ==> minAngle == minimumAngle && maxAngle == maximumAngle && position == old(position)
      ensures o.Pass? ==> minTicks == PulseTicks(minimumPulseWidth, ServoFrequency)
                          && maxTicks == PulseTicks(maximumPulseWidth, ServoFrequency)
      ensures o.Pass? ==> offset == PulseTicks(minimumPulseWidth, ServoFrequency) as real
      ensures o.Pass? ==> scale == Scale(PulseTicks(minimumPulseWidth, ServoFrequency),
                                         PulseTicks(maximumPulseWidth, ServoFrequency), minimumAngle, maximumAngle)
      ensures o.Pass? ==> pwm.duty == old(pwm.duty) && pwm.onTicks == old(pwm.onTicks) && pwm.offTicks == old(pwm.offTicks)
                          && pwm.outputEnabled == old(pwm.outputEnabled) && pwm.disposed == old(pwm.disposed)
    {
      if minimumPulseWidth < 0 { return Fail(ArgumentOutOfRange); }
      if maximumPulseWidth < 0 { return Fail(ArgumentOutOfRange); }
      if minimumAngle < 0.0 { return Fail(ArgumentOutOfRange); }
      if maximumAngle < 0.0 { return Fail(ArgumentOutOfRange); }
      if minimumPulseWidth >= maximumPulseWidth { return Fail(Argument); }
      if minimumAngle >= maximumAngle { return Fail(Argument); }

      if pwm.frequency != ServoFrequency {
        pwm.SetFrequency(ServoFrequency);
      }

      minAngle := minimumAngle;
      maxAngle := maximumAngle;

      var minTicks := PulseTicks(minimumPulseWidth, pwm.frequency);
      var maxTicks := PulseTicks(maximumPulseWidth, pwm.frequency);

      PulseTicksMonotone(minimumPulseWidth, maximumPulseWidth);
      scale := Scale(minTicks, maxTicks, minimumAngle, maximumAngle);
      offset := minTicks as real;
      this.minTicks, this.maxTicks := minTicks, maxTicks;

      limitsSet := true;
      o := Pass;
    }
  }

  /** An onboard motor terminal: one PWM channel for speed and two GPIO
    * lines for direction. */
  class Motor {
    var speed: real
    var disposed: bool
    const pwm: Pwm
    const gpio: Gpio.Controller
    const direction1: nat
    const direction2: nat
    const pwmChannel: int

    predicate Valid()
    {
      IsChannel(pwmChannel) && direction1 != direction2
    }

    /** Binds the motor and switches both direction lines to output. */
    constructor (pwm: Pwm, pwmChannel: int, gpio: Gpio.Controller, direction1: nat, direction2: nat)
      requires IsChannel(pwmChannel) && direction1 != direction2
      requires direction1 in gpio.lines && direction2 in gpio.lines
      modifies gpio, gpio.trace
      ensures Valid() && speed == 0.0 && !disposed
      ensures this.pwm == pwm && this.pwmChannel == pwmChannel && this.gpio == gpio
      ensures this.direction1 == direction1 && this.direction2 == direction2
      ensures gpio.lines == old(gpio.lines)[direction1 := old(gpio.lines)[direction1].(mode := Output)]
                                           [direction2 := old(gpio.lines)[direction2].(mode := Output)]
      ensures gpio.trace.events == old(gpio.trace.events) + [LineMode(direction1, Output), LineMode(direction2, Output)]
    {
      speed := 0.0;
      this.pwm := pwm;
      disposed := false;
      this.direction1 := direction1;
      this.direction2 := direction2;
      this.pwmChannel := pwmChannel;
      this.gpio := gpio;
      gpio.SetPinMode(direction1, Output);
      gpio.SetPinMode(direction2, Output);
    }

    method GetSpeed() returns (v: real)
      ensures v == speed
    {
      v := speed;
    }

    /** `Speed = v`: duty 0 first, then direction 1 high exactly for a
      * positive speed and direction 2 the opposite, then the magnitude. */
    method SetSpeed(v: real)
      requires Valid() && pwm.Valid() && pwm.trace == gpio.trace
      requires direction1 in gpio.lines && direction2 in gpio.lines
      modifies this, pwm, gpio, pwm.trace
      ensures pwm.Valid() && speed == v && disposed == old(disposed)
      ensures pwm.duty == old(pwm.duty)[pwmChannel := Abs(v)]
      ensures gpio.lines == old(gpio.lines)[direction1 := old(gpio.lines)[direction1].(level := v > 0.0)]
                                           [direction2 := old(gpio.lines)[direction2].(level := !(v > 0.0))]
      ensures gpio.lines[direction1].level != gpio.lines[direction2].level
      ensures pwm.frequency == old(pwm.frequency) && pwm.outputEnabled == old(pwm.outputEnabled) && pwm.disposed == old(pwm.disposed)
      ensures pwm.onTicks == old(pwm.onTicks) && pwm.offTicks == old(pwm.offTicks)
      ensures pwm.trace.events == old(pwm.trace.events) + SpeedEvents(pwmChannel, direction1, direction2, v)
    {
      pwm.SetDutyCycle(pwmChannel, 0.0);

      gpio.Write(direction1, v > 0.0);
      gpio.Write(direction2, !(v > 0.0));

      pwm.SetDutyCycle(pwmChannel, if v < 0.0 then -v else v);

      speed := v;
    }

    /** Sets the duty cycle to 0; the speed and the direction lines are kept. */
    method Stop()
      requires Valid() && pwm.Valid()
      modifies pwm, pwm.trace
      ensures pwm.Valid() && pwm.duty == old(pwm.duty)[pwmChannel := 0.0]
      ensures pwm.frequency == old(pwm.frequency) && pwm.outputEnabled == old(pwm.outputEnabled) && pwm.disposed == old(pwm.disposed)
      ensures pwm.onTicks == old(pwm.onTicks) && pwm.offTicks == old(pwm.offTicks)
      ensures pwm.trace.events == old(pwm.trace.events) + [DutyWrite(pwmChannel, 0.0)]
    {
      pwm.SetDutyCycle(pwmChannel, 0.0);
    }

    /** Releases the motor; a second call changes nothing. */
    method Dispose()
      modifies this
      ensures disposed && speed == old(speed)
      ensures old(disposed) ==> unchanged(this)
    {
      if !disposed {
        disposed := true;
      }
    }
  }

  // ---------------------------------------------------------------------
  // The board

  /** The sensors of `Create`: the accelerometer, initialised, and the
    * converter, each on its own device at its address with no straps set. */
  method OpenSensors() returns (accelerometer: MMA8453.Accelerometer, analog: ADS7830.Converter)
    ensures fresh(accelerometer) && fresh(accelerometer.device) && fresh(analog) && fresh(analog.device)
    ensures fresh(accelerometer.read) && fresh(accelerometer.write) && fresh(analog.read) && fresh(analog.write)
    ensures accelerometer.Valid() && analog.Valid() && !accelerometer.disposed && !analog.disposed
    ensures analog.read != accelerometer.write && analog.write != accelerometer.write
    ensures accelerometer.device.address == MMA8453.GetAddress(false)
    ensures accelerometer.device.log == [I2c.WriteOnly(MMA8453.InitWrite)]
    ensures analog.device.address == ADS7830.GetAddress(false, false) && analog.device.log == []
  {
    MMA8453.AddressFormula(false);
    var accelerometerDevice := new I2c.Device(MMA8453.GetAddress(false));
    accelerometer := new MMA8453.Accelerometer(accelerometerDevice);

    ADS7830.AddressFormula(false, false);
    var analogDevice := new I2c.Device(ADS7830.GetAddress(false, false));
    analog := new ADS7830.Converter(analogDevice);
  }

  /** The PWM controller of `Create`: outputs enabled, then 1500 Hz. */
  method OpenPwm(trace: Trace) returns (pwm: Pwm)
    modifies trace
    ensures fresh(pwm) && pwm.Valid() && pwm.trace == trace
    ensures pwm.outputEnabled && pwm.frequency == 1500 && !pwm.disposed
    ensures forall c | IsChannel(c) :: pwm.duty[c] == 0.0 && pwm.onTicks[c] == 0 && pwm.offTicks[c] == 0
  {
    pwm := new Pwm(trace);
    pwm.SetOutputEnabled(true);
    pwm.SetFrequency(1500);
  }

  /** The header and button lines of `Create`, each opened as an output. */
  method OpenHeaderLines(gpio: Gpio.Controller)
    modifies gpio, gpio.trace
    ensures gpio.lines == Gpio.Opened(Gpio.Opened(Gpio.Opened(Gpio.Opened(Gpio.Opened(old(gpio.lines),
      Dio16Line, Output), Dio26Line, Output), Dio24Line, Output), Dio18Line, Output), Dio22Line, Output)
  {
    gpio.OpenPin(Dio16Line, Output);
    gpio.OpenPin(Dio26Line, Output);
    gpio.OpenPin(Dio24Line, Output);
    gpio.OpenPin(Dio18Line, Output);
    gpio.OpenPin(Dio22Line, Output);
  }

  /** The header lines switched to their directions: DIO16 and DIO26
    * inputs, DIO24 (the LED) an output. */
  method SetHeaderModes(gpio: Gpio.Controller)
    requires {Dio16Line, Dio26Line, Dio24Line} <= gpio.lines.Keys
    modifies gpio, gpio.trace
    ensures gpio.lines.Keys == old(gpio.lines.Keys)
    ensures gpio.lines[Dio16Line].mode == Input && gpio.lines[Dio26Line].mode == Input
    ensures gpio.lines[Dio24Line].mode == Output
    ensures forall line | line in gpio.lines && line !in {Dio16Line, Dio26Line, Dio24Line} ::
      gpio.lines[line] == old(gpio.lines)[line]
  {
    gpio.SetPinMode(Dio16Line, Input);
    gpio.SetPinMode(Dio26Line, Input);
    gpio.SetPinMode(Dio24Line, Output);
  }

  /** The button lines switched to input. */
  method SetButtonModes(gpio: Gpio.Controller)
    requires {Dio18Line, Dio22Line} <= gpio.lines.Keys
    modifies gpio, gpio.trace
    ensures gpio.lines.Keys == old(gpio.lines.Keys)
    ensures gpio.lines[Dio18Line].mode == Input && gpio.lines[Dio22Line].mode == Input
    ensures forall line | line in gpio.lines && line !in {Dio18Line, Dio22Line} ::
      gpio.lines[line] == old(gpio.lines)[line]
  {
    gpio.SetPinMode(Dio18Line, Input);
    gpio.SetPinMode(Dio22Line, Input);
  }

  /** The motor-enable line of `Create`: opened, set to output and driven high. */
  method EnableMotors(gpio: Gpio.Controller)
    modifies gpio, gpio.trace
    ensures gpio.lines == old(gpio.lines)[MotorEnableLine := Gpio.Line(Output, true)]
  {
    gpio.OpenPin(MotorEnableLine, Output);
    gpio.SetPinMode(MotorEnableLine, Output);
    gpio.Write(MotorEnableLine, true);
  }

  /** The four motor direction lines of `Create`, opened as outputs. */
  method OpenDirectionLines(gpio: Gpio.Controller)
    modifies gpio, gpio.trace
    ensures gpio.lines == Gpio.Opened(Gpio.Opened(Gpio.Opened(Gpio.Opened(old(gpio.lines),
      MotorADirection1, Output), MotorBDirection1, Output), MotorADirection2, Output), MotorBDirection2, Output)
  {
    gpio.OpenPin(MotorADirection1, Output);
    gpio.OpenPin(MotorBDirection1, Output);
    gpio.OpenPin(MotorADirection2, Output);
    gpio.OpenPin(MotorBDirection2, Output);
  }

  /** The controller and the PWM part of `Create`: line 13 (the PWM
    * output-enable line) opened, the PWM controller started, then the header,
    * button and motor lines set up. */
  method OpenControllers(trace: Trace) returns (gpio: Gpio.Controller, pwm: Pwm)
    modifies trace
    ensures fresh(gpio) && fresh(pwm) && gpio.trace == trace && pwm.trace == trace
    ensures pwm.Valid() && pwm.outputEnabled && pwm.frequency == 1500 && !pwm.disposed
    ensures forall c | IsChannel(c) :: pwm.duty[c] == 0.0 && pwm.onTicks[c] == 0 && pwm.offTicks[c] == 0
    ensures BoardLines <= gpio.lines.Keys
    ensures gpio.lines[Dio16Line].mode == Input && gpio.lines[Dio26Line].mode == Input
    ensures gpio.lines[Dio24Line].mode == Output
    ensures gpio.lines[Dio18Line].mode == Input && gpio.lines[Dio22Line].mode == Input
    ensures gpio.lines[MotorEnableLine] == Gpio.Line(Output, true)
    ensures gpio.lines[PwmOutputEnableLine].mode == Output && DirectionOutputs(gpio.lines)
    ensures DirectionLinesLow(gpio.lines)
  {
    gpio := new Gpio.Controller(trace);
    gpio.OpenPin(PwmOutputEnableLine, Output);
    pwm := OpenPwm(trace);
    ConfigureLines(gpio);
  }

  /** The header and button lines of `Create`, opened and then switched to
    * their directions; no other line changes. */
  method SetUpHeader(gpio: Gpio.Controller)
    modifies gpio, gpio.trace
    ensures gpio.lines.Keys == old(gpio.lines.Keys) + {Dio16Line, Dio26Line, Dio24Line, Dio18Line, Dio22Line}
    ensures gpio.lines[Dio16Line].mode == Input && gpio.lines[Dio26Line].mode == Input
    ensures gpio.lines[Dio24Line].mode == Output
    ensures gpio.lines[Dio18Line].mode == Input && gpio.lines[Dio22Line].mode == Input
    ensures forall line | line in old(gpio.lines) && line !in {Dio16Line, Dio26Line, Dio24Line, Dio18Line, Dio22Line} ::
      gpio.lines[line] == old(gpio.lines)[line]
  {
    OpenHeaderLines(gpio);
    SetHeaderModes(gpio);
    SetButtonModes(gpio);
  }

  /** The motor lines of `Create`: the enable line driven high, then the four
    * direction lines opened as outputs; no other line changes. */
  method SetUpMotorLines(gpio: Gpio.Controller)
    modifies gpio, gpio.trace
    ensures gpio.lines.Keys == old(gpio.lines.Keys)
                               + {MotorEnableLine, MotorADirection1, MotorADirection2, MotorBDirection1, MotorBDirection2}
    ensures gpio.lines[MotorEnableLine] == Gpio.Line(Output, true)
    ensures DirectionOutputs(gpio.lines)
    ensures MotorADirection1 !in old(gpio.lines) && MotorADirection2 !in old(gpio.lines)
            && MotorBDirection1 !in old(gpio.lines) && MotorBDirection2 !in old(gpio.lines)
            ==> DirectionLinesLow(gpio.lines)
    ensures forall line | line in old(gpio.lines) && line !in {MotorEnableLine, MotorADirection1, MotorADirection2,
                                                              MotorBDirection1, MotorBDirection2} ::
      gpio.lines[line] == old(gpio.lines)[line]
  {
    EnableMotors(gpio);
    OpenDirectionLines(gpio);
  }

  /** The lines `Create` opens after the PWM controller, with their directions. */
  method ConfigureLines(gpio: Gpio.Controller)
    requires PwmOutputEnableLine in gpio.lines
    modifies gpio, gpio.trace
    ensures BoardLines <= gpio.lines.Keys
    ensures gpio.lines[Dio16Line].mode == Input && gpio.lines[Dio26Line].mode == Input
    ensures gpio.lines[Dio24Line].mode == Output
    ensures gpio.lines[Dio18Line].mode == Input && gpio.lines[Dio22Line].mode == Input
    ensures gpio.lines[MotorEnableLine] == Gpio.Line(Output, true)
    ensures DirectionOutputs(gpio.lines)
    ensures MotorADirection1 !in old(gpio.lines) && MotorADirection2 !in old(gpio.lines)
            && MotorBDirection1 !in old(gpio.lines) && MotorBDirection2 !in old(gpio.lines)
            ==> DirectionLinesLow(gpio.lines)
    ensures gpio.lines[PwmOutputEnableLine] == old(gpio.lines)[PwmOutputEnableLine]
  {
    SetUpHeader(gpio);
    SetUpMotorLines(gpio);
  }

  /** The four motor direction lines are open as outputs. */
  predicate DirectionOutputs(lines: map<nat, Gpio.Line>)
  {
    && MotorADirection1 in lines && lines[MotorADirection1].mode == Output
    && MotorADirection2 in lines && lines[MotorADirection2].mode == Output
    && MotorBDirection1 in lines && lines[MotorBDirection1].mode == Output
    && MotorBDirection2 in lines && lines[MotorBDirection2].mode == Output
  }

  /** The four motor direction lines are open and driven low. */
  predicate DirectionLinesLow(lines: map<nat, Gpio.Line>)
  {
    && MotorADirection1 in lines && !lines[MotorADirection1].level
    && MotorADirection2 in lines && !lines[MotorADirection2].level
    && MotorBDirection1 in lines && !lines[MotorBDirection1].level
    && MotorBDirection2 in lines && !lines[MotorBDirection2].level
  }

  /** The actuators of `Create`, each bound to its channel and lines. */
  method BindActuators(pwm: Pwm, gpio: Gpio.Controller)
    returns (motorA: Motor, motorB: Motor, d2: RgbLed, d3: RgbLed, s1: Servo, s2: Servo)
    requires {MotorADirection1, MotorADirection2, MotorBDirection1, MotorBDirection2} <= gpio.lines.Keys
    modifies gpio, gpio.trace
    ensures fresh(motorA) && fresh(motorB) && fresh(d2) && fresh(d3) && fresh(s1) && fresh(s2)
    ensures motorA.Valid() && motorB.Valid() && d2.Valid() && d3.Valid() && s1.Valid() && s2.Valid()
    ensures motorA.pwm == pwm && motorA.gpio == gpio && motorA.pwmChannel == MotorAChannel
            && motorA.direction1 == MotorADirection1 && motorA.direction2 == MotorADirection2
    ensures motorB.pwm == pwm && motorB.gpio == gpio && motorB.pwmChannel == MotorBChannel
            && motorB.direction1 == MotorBDirection1 && motorB.direction2 == MotorBDirection2
    ensures d2.pwm == pwm && (d2.redChannel, d2.greenChannel, d2.blueChannel) == D2Channels
    ensures d3.pwm == pwm && (d3.redChannel, d3.greenChannel, d3.blueChannel) == D3Channels
    ensures s1.pwm == pwm && s1.channel == S1Channel && s2.pwm == pwm && s2.channel == S2Channel
    ensures motorA.speed == 0.0 && motorB.speed == 0.0 && !motorA.disposed && !motorB.disposed
    ensures d2.color == Black && d3.color == Black && !s1.limitsSet && !s2.limitsSet
    ensures gpio.lines.Keys == old(gpio.lines.Keys)
    ensures forall line | line in gpio.lines && line !in {MotorADirection1, MotorADirection2, MotorBDirection1, MotorBDirection2} ::
      gpio.lines[line] == old(gpio.lines)[line]
    ensures gpio.lines[MotorADirection1] == old(gpio.lines)[MotorADirection1].(mode := Output)
    ensures gpio.lines[MotorADirection2] == old(gpio.lines)[MotorADirection2].(mode := Output)
    ensures gpio.lines[MotorBDirection1] == old(gpio.lines)[MotorBDirection1].(mode := Output)
    ensures gpio.lines[MotorBDirection2] == old(gpio.lines)[MotorBDirection2].(mode := Output)
  {
    motorA := new Motor(pwm, MotorAChannel, gpio, MotorADirection1, MotorADirection2);
    motorB := new Motor(pwm, MotorBChannel, gpio, MotorBDirection1, MotorBDirection2);

    d2 := new RgbLed(pwm, D2Channels.0, D2Channels.1, D2Channels.2);
    d3 := new RgbLed(pwm, D3Channels.0, D3Channels.1, D3Channels.2);

    s1 := new Servo(pwm, S1Channel);
    s2 := new Servo(pwm, S2Channel);
  }

  /** Drives `line` to `state`, switching it to output first only when it
    * is not already an output. */
  method DriveLine(gpio: Gpio.Controller, line: nat, state: bool)
    requires line in gpio.lines
    modifies gpio, gpio.trace
    ensures gpio.lines == old(gpio.lines)[line := Gpio.Line(Output, state)]
    ensures gpio.trace.events == old(gpio.trace.events)
                                 + (if old(gpio.lines)[line].mode != Output then [LineMode(line, Output)] else [])
                                 + [LineWrite(line, state)]
  {
    var m := gpio.GetPinMode(line);
    if m != Output {
      gpio.SetPinMode(line, Output);
    }
    gpio.Write(line, state);
  }

  class FezHat {
    var disposed: bool
    ghost const trace: Trace
    const pwm: Pwm
    const analog: ADS7830.Converter
    const accelerometer: MMA8453.Accelerometer
    const gpio: Gpio.Controller
    const motorA: Motor
    const motorB: Motor
    const d2: RgbLed
    const d3: RgbLed
    const s1: Servo
    const s2: Servo

    /** Every line the board uses is open. */
    ghost predicate LinesOpen()
      reads this, gpio
    {
      BoardLines <= gpio.lines.Keys
    }

    /** The actuators are bound to the fixed channels and lines of `Create`. */
    ghost predicate Bindings()
      reads this
    {
      motorA.pwm == pwm && motorA.gpio == gpio && motorA.pwmChannel == MotorAChannel
      && motorA.direction1 == MotorADirection1 && motorA.direction2 == MotorADirection2
      && motorB.pwm == pwm && motorB.gpio == gpio && motorB.pwmChannel == MotorBChannel
      && motorB.direction1 == MotorBDirection1 && motorB.direction2 == MotorBDirection2
      && d2.pwm == pwm && (d2.redChannel, d2.greenChannel, d2.blueChannel) == D2Channels
      && d3.pwm == pwm && (d3.redChannel, d3.greenChannel, d3.blueChannel) == D3Channels
      && s1.pwm == pwm && s1.channel == S1Channel
      && s2.pwm == pwm && s2.channel == S2Channel
      && motorA != motorB && d2 != d3 && s1 != s2
    }

    /** The parts are well formed, share one trace, are wired as `Create`
      * wires them, and a disposed board has released them. */
    ghost predicate Wired()
      reads this, pwm, analog, accelerometer, accelerometer.write, motorA, motorB, s1, s2
    {
      pwm.Valid() && analog.Valid() && accelerometer.Valid()
      && pwm.trace == trace && gpio.trace == trace
      && analog.read != accelerometer.write && analog.write != accelerometer.write
      && analog.device != accelerometer.device
      && Bindings()
      && motorA.Valid() && motorB.Valid() && d2.Valid() && d3.Valid() && s1.Valid() && s2.Valid()
      && (disposed ==> pwm.disposed && analog.disposed && accelerometer.disposed && motorA.disposed && motorB.disposed)
    }

    /** Every board line is open, the buttons are inputs and the DIO24 LED
      * an output, and neither motor terminal drives an ambiguous direction. */
    ghost predicate LinesSafe()
      reads this, pwm, gpio
    {
      LinesOpen() && |pwm.duty| == ChannelCount
      && gpio.lines[Dio18Line].mode == Input && gpio.lines[Dio22Line].mode == Input
      && gpio.lines[Dio24Line].mode == Output
      && Safe(Terminal(pwm.duty[MotorAChannel], gpio.lines[MotorADirection1].level, gpio.lines[MotorADirection2].level))
      && Safe(Terminal(pwm.duty[MotorBChannel], gpio.lines[MotorBDirection1].level, gpio.lines[MotorBDirection2].level))
    }

    ghost predicate Valid()
      reads this, pwm, gpio, analog, accelerometer, accelerometer.write, motorA, motorB, s1, s2
    {
      Wired() && LinesSafe()
    }

    /** `Create`: opens the devices and lines in the source's order, enables
      * the PWM outputs at 1500 Hz, drives the motor-enable line high and
      * binds the actuators to their channels. */
    constructor Create()
      ensures Valid() && !disposed && fresh(trace) && fresh(pwm) && fresh(gpio)
      ensures fresh(analog) && fresh(analog.read) && fresh(analog.write) && fresh(analog.device)
      ensures fresh(accelerometer) && fresh(accelerometer.read) && fresh(accelerometer.write) && fresh(accelerometer.device)
      ensures fresh(motorA) && fresh(motorB) && fresh(d2) && fresh(d3) && fresh(s1) && fresh(s2)
      ensures pwm.outputEnabled && pwm.frequency == 1500 && !pwm.disposed
      ensures forall c | IsChannel(c) :: pwm.duty[c] == 0.0 && pwm.onTicks[c] == 0 && pwm.offTicks[c] == 0
      ensures gpio.lines[MotorEnableLine] == Gpio.Line(Output, true)
      ensures gpio.lines[PwmOutputEnableLine].mode == Output && DirectionOutputs(gpio.lines)
      ensures DirectionLinesLow(gpio.lines)
      ensures gpio.lines[Dio16Line].mode == Input && gpio.lines[Dio26Line].mode == Input
      ensures gpio.lines[Dio24Line].mode == Output
      ensures gpio.lines[Dio18Line].mode == Input && gpio.lines[Dio22Line].mode == Input
      ensures motorA.speed == 0.0 && motorB.speed == 0.0
      ensures d2.color == Black && d3.color == Black
      ensures !s1.limitsSet && !s2.limitsSet
      ensures !analog.disposed && !accelerometer.disposed
      ensures accelerometer.device.address == MMA8453.GetAddress(false)
      ensures accelerometer.device.log == [I2c.WriteOnly(MMA8453.InitWrite)]
      ensures analog.device.address == ADS7830.GetAddress(false, false) && analog.device.log == []
    {
      var tr := new Trace();
      var accel, adc := OpenSensors();
      var controller, p := OpenControllers(tr);
      var ma, mb, led2, led3, servo1, servo2 := BindActuators(p, controller);

      disposed := false;
      trace := tr;
      pwm := p;
      analog := adc;
      accelerometer := accel;
      gpio := controller;
      motorA, motorB := ma, mb;
      d2, d3 := led2, led3;
      s1, s2 := servo1, servo2;
    }

    method GetPwmFrequency() returns (hz: int)
      ensures hz == pwm.frequency
    {
      hz := pwm.frequency;
    }

    /** Sets the frequency shared by every PWM channel, actuators included. */
    method SetPwmFrequency(hz: int)
      requires Valid()
      modifies pwm, trace
      ensures Valid() && pwm.frequency == hz
      ensures pwm.duty == old(pwm.duty) && pwm.onTicks == old(pwm.onTicks) && pwm.offTicks == old(pwm.offTicks)
      ensures pwm.outputEnabled == old(pwm.outputEnabled) && pwm.disposed == old(pwm.disposed)
      ensures trace.events == old(trace.events) + [FrequencyWrite(hz)]
    {
      pwm.SetFrequency(hz);
    }

    /** The DIO24 LED is on exactly when its line is high. The line is an
      * output, so it reads back the level it drives whatever `sensed` is. */
    method GetDio24On(sensed: bool) returns (on: bool)
      requires Valid()
      ensures on == gpio.lines[Dio24Line].level
    {
      var high := gpio.Read(Dio24Line, sensed);
      on := high == true;
    }

    method SetDio24On(on: bool)
      requires Valid()
      modifies gpio, trace
      ensures Valid() && gpio.lines == old(gpio.lines)[Dio24Line := old(gpio.lines)[Dio24Line].(level := on)]
      ensures trace.events == old(trace.events) + [LineWrite(Dio24Line, on)]
    {
      gpio.Write(Dio24Line, on);
    }

    /** The DIO18 button is pressed exactly when its line reads low;
      * `sensed` is the level the button drives onto the line. */
    method IsDio18Pressed(sensed: bool) returns (pressed: bool)
      requires Valid()
      ensures pressed <==> !sensed
    {
      var high := gpio.Read(Dio18Line, sensed);
      pressed := high == false;
    }

    /** The DIO22 button is pressed exactly when its line reads low;
      * `sensed` is the level the button drives onto the line. */
    method IsDio22Pressed(sensed: bool) returns (pressed: bool)
      requires Valid()
      ensures pressed <==> !sensed
    {
      var high := gpio.Read(Dio22Line, sensed);
      pressed := high == false;
    }

    /** The light level in [0, 1]; `answer` is the converter's byte. */
    method GetLightLevel(answer: Byte) returns (r: Result<real>)
      requires Valid()
      modifies analog.read, analog.write, analog.device
      ensures Valid()
      ensures analog.disposed ==> r == Err(ObjectDisposed) && analog.device.log == old(analog.device.log)
      ensures !analog.disposed ==> r == Ok(ByteFraction(answer)) && 0.0 <= r.value <= 1.0
      ensures !analog.disposed ==>
                analog.device.log == old(analog.device.log) + [I2c.WriteThenRead([ADS7830.Command(LightChannel)], [answer])]
    {
      r := analog.Read(LightChannel, answer);
    }

    /** The temperature in degrees Celsius; `answer` is the converter's byte. */
    method GetTemperature(answer: Byte) returns (r: Result<real>)
      requires Valid()
      modifies analog.read, analog.write, analog.device
      ensures Valid()
      ensures analog.disposed ==> r == Err(ObjectDisposed) && analog.device.log == old(analog.device.log)
      ensures !analog.disposed ==> r == Ok(Temperature(ByteFraction(answer)))
      ensures !analog.disposed ==>
                analog.device.log == old(analog.device.log) + [I2c.WriteThenRead([ADS7830.Command(TemperatureChannel)], [answer])]
    {
      var fraction := analog.Read(TemperatureChannel, answer);
      match fraction
      case Err(e) => r := Err(e);
      case Ok(v) => r := Ok(Temperature(v));
    }

    /** The three axes from one accelerometer burst; `answer` is its six bytes. */
    method GetAcceleration(answer: seq<Byte>) returns (r: Result<MMA8453.Acceleration>)
      requires Valid() && |answer| == MMA8453.BurstLength
      modifies accelerometer.read, accelerometer.device
      ensures Valid()
      ensures accelerometer.disposed ==> r == Err(ObjectDisposed) && accelerometer.device.log == old(accelerometer.device.log)
      ensures !accelerometer.disposed ==> r == Ok(MMA8453.Axes(answer))
      ensures !accelerometer.disposed ==>
                accelerometer.device.log == old(accelerometer.device.log) + [I2c.WriteThenRead([MMA8453.DataRegister], answer)]
    {
      r := accelerometer.GetAcceleration(answer);
    }

    /** Sets a header PWM pin's duty cycle: a value outside [0, 1] or an
      * undefined pin is rejected with nothing changed; otherwise only that
      * channel changes. */
    method SetPwmDutyCycle(pin: int, value: real) returns (o: Outcome)
      requires Valid()
      modifies pwm, trace
      ensures Valid()
      ensures !(0.0 <= value <= 1.0) ==> o == Fail(ArgumentOutOfRange)
      ensures 0.0 <= value <= 1.0 && !IsPwmPin(pin) ==> o == Fail(Argument)
      ensures 0.0 <= value <= 1.0 && IsPwmPin(pin) ==> o == Pass
      ensures o.Fail? ==> unchanged(pwm) && trace.events == old(trace.events)
      ensures o.Pass? ==> pwm.duty == old(pwm.duty)[pin := value]
      ensures o.Pass? ==> trace.events == old(trace.events) + [DutyWrite(pin, value)]
      ensures pwm.frequency == old(pwm.frequency) && pwm.onTicks == old(pwm.onTicks) && pwm.offTicks == old(pwm.offTicks)
      ensures pwm.outputEnabled == old(pwm.outputEnabled) && pwm.disposed == old(pwm.disposed)
    {
      if value < 0.0 || value > 1.0 {
        return Fail(ArgumentOutOfRange);
      }
      if !IsPwmPin(pin) {
        return Fail(Argument);
      }
      pwm.SetDutyCycle(pin, value);
      o := Pass;
    }

    /** Drives a digital header pin, switching its line to output first
      * only when it is not already an output. */
    method WriteDigital(pin: int, state: bool) returns (o: Outcome)
      requires Valid()
      modifies gpio, trace
      ensures Valid()
      ensures !IsDigitalPin(pin) ==> o == Fail(Argument) && unchanged(gpio) && trace.events == old(trace.events)
      ensures IsDigitalPin(pin) ==> o == Pass
      ensures o.Pass? ==> gpio.lines == old(gpio.lines)[DigitalLine(pin) := Gpio.Line(Output, state)]
      ensures o.Pass? ==> trace.events == old(trace.events)
                          + (if old(gpio.lines)[DigitalLine(pin)].mode != Output then [LineMode(DigitalLine(pin), Output)] else [])
                          + [LineWrite(DigitalLine(pin), state)]
    {
      if !(pin == DIO16 || pin == DIO26) {
        return Fail(Argument);
      }
      var line := if pin == DIO16 then Dio16Line else Dio26Line;
      DriveLine(gpio, line, state);
      o := Pass;
    }

    /** Reads a digital header pin, switching its line to input first only
      * when it is not already an input; `sensed` is the level driven onto
      * the pin from outside. */
    method ReadDigital(pin: int, sensed: bool) returns (r: Result<bool>)
      requires Valid()
      modifies gpio, trace
      ensures Valid()
      ensures !IsDigitalPin(pin) ==> r == Err(Argument) && unchanged(gpio) && trace.events == old(trace.events)
      ensures IsDigitalPin(pin) ==> r == Ok(sensed)
      ensures r.Ok? ==> gpio.lines == old(gpio.lines)[DigitalLine(pin) := old(gpio.lines)[DigitalLine(pin)].(mode := Input)]
      ensures r.Ok? ==> trace.events == old(trace.events)
                        + (if old(gpio.lines)[DigitalLine(pin)].mode != Input then [LineMode(DigitalLine(pin), Input)] else [])
    {
      if !(pin == DIO16 || pin == DIO26) {
        return Err(Argument);
      }
      var line := if pin == DIO16 then Dio16Line else Dio26Line;
      var m := gpio.GetPinMode(line);
      if m != Input {
        gpio.SetPinMode(line, Input);
      }
      var high := gpio.Read(line, sensed);
      r := Ok(high == true);
    }

    /** Reads an analog header pin in [0, 1]; `answer` is the converter's byte. */
    method ReadAnalog(pin: int, answer: Byte) returns (r: Result<real>)
      requires Valid()
      modifies analog.read, analog.write, analog.device
      ensures Valid()
      ensures !IsAnalogPin(pin) ==> r == Err(Argument)
      ensures IsAnalogPin(pin) && analog.disposed ==> r == Err(ObjectDisposed)
      ensures IsAnalogPin(pin) && !analog.disposed ==> r.Ok?
      ensures r.Err? ==> analog.device.log == old(analog.device.log)
      ensures r.Ok? ==> IsAnalogPin(pin) && !analog.disposed && r.value == ByteFraction(answer)
      ensures r.Ok? ==> analog.device.log == old(analog.device.log) + [I2c.WriteThenRead([ADS7830.Command(pin)], [answer])]
    {
      if !IsAnalogPin(pin) {
        return Err(Argument);
      }
      r := analog.Read(ToByte(pin), answer);
    }

    /** Releases the PWM controller, the converter, the accelerometer and the
      * motors; the GPIO lines stay open. A second call changes nothing. */
    method Dispose()
      requires Valid()
      modifies this, pwm, analog, accelerometer, motorA, motorB
      ensures Valid() && disposed
      ensures pwm.disposed && analog.disposed && accelerometer.disposed && motorA.disposed && motorB.disposed
      ensures pwm.duty == old(pwm.duty) && pwm.frequency == old(pwm.frequency) && pwm.outputEnabled == old(pwm.outputEnabled)
      ensures pwm.onTicks == old(pwm.onTicks) && pwm.offTicks == old(pwm.offTicks)
      ensures motorA.speed == old(motorA.speed) && motorB.speed == old(motorB.speed)
      ensures old(disposed) ==> unchanged(this, pwm, analog, accelerometer, motorA, motorB)
    {
      if !disposed {
        pwm.Dispose();
        analog.Dispose();
        accelerometer.Dispose();
        motorA.Dispose();
        motorB.Dispose();
        disposed := true;
      }
    }
  }
}

=== FILE: Gpio.dfy ===
/** The GPIO controller: the lines the board has opened, each with a
  * direction and a level. The level an input line reads is driven from
  * outside the program, so it is a parameter of the read. */
module Gpio {
  import opened Signals

  /** An open line: its direction and its current level. */
  datatype Line = Line(mode: PinMode, level: bool)

  /** The lines after opening `pin` in mode `m`: a line that was never
    * driven reads low, one opened before keeps its level. */
  function Opened(lines: map<nat, Line>, pin: nat, m: PinMode): (after: map<nat, Line>)
  {
    lines[pin := Line(m, if pin in lines then lines[pin].level else false)]
  }

  class Controller {
    var lines: map<nat, Line>
    ghost const trace: Trace

    constructor (trace: Trace)
      ensures this.trace == trace && lines == map[]
    {
      this.trace := trace;
      lines := map[];
    }

    /** Opens `pin` in the given mode; a line that was never driven reads low. */
    method OpenPin(pin: nat, m: PinMode)
      modifies this, trace
      ensures lines == Opened(old(lines), pin, m)
      ensures trace.events == old(trace.events) + [LineMode(pin, m)]
    {
      lines := lines[pin := Line(m, if pin in lines then lines[pin].level else false)];
      trace.events := trace.events + [LineMode(pin, m)];
    }

    method SetPinMode(pin: nat, m: PinMode)
      requires pin in lines
      modifies this, trace
      ensures lines == old(lines)[pin := old(lines)[pin].(mode := m)]
      ensures trace.events == old(trace.events) + [LineMode(pin, m)]
    {
      lines := lines[pin := lines[pin].(mode := m)];
      trace.events := trace.events + [LineMode(pin, m)];
    }

    method GetPinMode(pin: nat) returns (m: PinMode)
      requires pin in lines
      ensures m == lines[pin].mode
    {
      m := lines[pin].mode;
    }

    method Write(pin: nat, high: bool)
      requires pin in lines
      modifies this, trace
      ensures lines == old(lines)[pin := old(lines)[pin].(level := high)]
      ensures trace.events == old(trace.events) + [LineWrite(pin, high)]
    {
      lines := lines[pin := lines[pin].(level := high)];
      trace.events := trace.events + [LineWrite(pin, high)];
    }

    /** Reads `pin`: an input line reads the level the outside world drives
      * onto it, which `sensed` stands for; an output line reads back the
      * level it drives. */
    method Read(pin: nat, sensed: bool) returns (high: bool)
      requires pin in lines
      ensures lines[pin].mode == Input ==> high == sensed
      ensures lines[pin].mode == Output ==> high == lines[pin].level
    {
      high := if lines[pin].mode == Input then sensed else lines[pin].level;
    }
  }
}

=== FILE: I2c.dfy ===
/** The I2C transport seen from one peripheral: a device handle at a fixed
  * 7-bit address that performs write and write-then-read transactions.
  * What the peripheral answers comes from outside the program, so it is a
  * parameter of the read. */
module I2c {
  import opened Bits

  /** One bus transaction, as the peripheral sees it. */
  datatype Transaction =
    | WriteOnly(data: seq<Byte>)
    | WriteThenRead(sent: seq<Byte>, received: seq<Byte>)

  class Device {
    const address: Address
    /** Every transaction issued to this device, oldest first. */
    var log: seq<Transaction>

    constructor (address: Address)
      ensures this.address == address && log == []
    {
      this.address := address;
      log := [];
    }

    method Write(data: seq<Byte>)
      modifies this
      ensures log == old(log) + [WriteOnly(data)]
    {
      log := log + [WriteOnly(data)];
    }

    /** Sends `sent`, then fills `buffer` in place with the peripheral's
      * answer, which `answer` stands for. */
    method WriteRead(sent: seq<Byte>, buffer: array<Byte>, answer: seq<Byte>)
      requires |answer| == buffer.Length
      modifies this, buffer
      ensures buffer[..] == answer
      ensures log == old(log) + [WriteThenRead(sent, answer)]
    {
      forall i | 0 <= i < buffer.Length {
        buffer[i] := answer[i];
      }
      log := log + [WriteThenRead(sent, answer)];
    }
  }
}

=== FILE: MMA8453.dfy ===
/** The MMA8453 3-axis accelerometer. Construction switches the chip to
  * active mode; a sample is one 6-byte burst read holding the X, Y and Z
  * outputs, each a 10-bit two's-complement value split over two bytes. */
module MMA8453 {
  import opened Bits
  import opened Errors
  import opened I2c

  /** The bus address: `0x1C | a0`, cast to a byte. */
  function GetAddress(a0: bool): (address: Byte)
    ensures address / 2 == 0x0E
  {
    assert Pow2(2) == 4;
    OrSplit(7, 0, 0, if a0 then 1 else 0, 2);
    ToByte(BitOr(0x1C, if a0 then 1 else 0))
  }

  /** The strap input selects 0x1C or 0x1D, both 7-bit addresses. */
  lemma AddressFormula(a0: bool)
    ensures GetAddress(a0) == (if a0 then 0x1D else 0x1C)
    ensures GetAddress(a0) < 128
  {
    assert Pow2(2) == 4;
    OrSplit(7, 0, 0, if a0 then 1 else 0, 2);
  }

  /** The initialisation write: control register 1 (0x2A) gets 0x01, its ACTIVE bit. */
  const InitWrite: seq<Byte> := [0x2A, 0x01]

  /** The register a burst read starts at: the X-axis high byte, 0x01. */
  const DataRegister: Byte := 0x01

  /** The number of bytes in one burst read: two per axis. */
  const BurstLength := 6

  /** The 10-bit sample `hi << 2 | lo >> 6` of one axis. */
  function Combine(hi: Byte, lo: Byte): (sample: nat)
    ensures sample < 1024 && sample / 4 == hi
  {
    assert Pow2(2) == 4 && Pow2(6) == 64;
    ShlOr(hi, lo / 64, 2);
    BitOr(Shl(hi, 2), Shr(lo, 6))
  }

  /** The or never carries: the sample is `4 * hi` plus the top two bits of
    * `lo`, a value in 0..1023. */
  lemma CombineFormula(hi: Byte, lo: Byte)
    ensures Combine(hi, lo) == 4 * hi + lo / 64
    ensures Combine(hi, lo) < 1024
  {
    assert Pow2(2) == 4 && Pow2(6) == 64;
    ShlOr(hi, lo / 64, 2);
  }

  /** Only the top two bits of the low byte matter: two low bytes give the
    * same sample exactly when they agree in those bits. */
  lemma CombineReadsTopBitsOfLow(hi: Byte, lo1: Byte, lo2: Byte)
    ensures Combine(hi, lo1) == Combine(hi, lo2) <==> lo1 / 64 == lo2 / 64
  {
    CombineFormula(hi, lo1);
    CombineFormula(hi, lo2);
  }

  /** Every 10-bit value is the sample of some pair of bytes. */
  lemma CombineOnto(v: nat)
    requires v < 1024
    ensures Combine(v / 4, (v % 4) * 64) == v
  {
    CombineFormula(v / 4, (v % 4) * 64);
  }

  /** The two's-complement reading of a 10-bit value. */
  function ToSigned(v: int): (s: int)
    ensures 0 <= v < 1024 ==> -512 <= s < 512 && (s < 0 <==> v >= 512)
  {
    if v > 511 then v - 1024 else v
  }

  /** The 10-bit pattern of a signed value in -512..511. */
  function FromSigned(s: int): (v: int)
  {
    if s < 0 then s + 1024 else s
  }

  /** Sign correction is a bijection from 0..1023 onto -512..511, undone by `FromSigned`. */
  lemma SignCorrectionBijective(v: int, s: int)
    requires 0 <= v < 1024 && -512 <= s < 512
    ensures -512 <= ToSigned(v) < 512 && FromSigned(ToSigned(v)) == v
    ensures 0 <= FromSigned(s) < 1024 && ToSigned(FromSigned(s)) == s
  {
  }

  /** `Normalize(offset)`: the axis whose high byte is at `offset` of the
    * burst buffer, in g. */
  function Normalize(read: seq<Byte>, offset: nat): (g: real)
    requires offset + 1 < |read|
    ensures g == ToSigned(4 * (read[offset] as int) + read[offset + 1] / 64) as real / 256.0
    ensures -2.0 <= g <= 511.0 / 256.0
  {
    CombineFormula(read[offset], read[offset + 1]);
    var value := Combine(read[offset], read[offset + 1]) as real;
    var signed := if value > 511.0 then value - 1024.0 else value;
    signed / 256.0
  }

  /** Samples 600 and 300 normalise to -1.65625 g and 1.171875 g; the low
    * six bits of the second byte are ignored. */
  lemma NormalizeExamples()
    ensures Normalize([150, 0], 0) == -1.65625
    ensures Normalize([150, 63], 0) == -1.65625
    ensures Normalize([75, 0], 0) == 1.171875
  {
  }

  /** One reading of the three axes, in g. */
  datatype Acceleration = Acceleration(x: real, y: real, z: real)

  /** The axes of one burst buffer, taken from offsets 0, 2 and 4. */
  function Axes(read: seq<Byte>): (a: Acceleration)
    requires |read| == BurstLength
    ensures -2.0 <= a.x <= 511.0 / 256.0 && -2.0 <= a.y <= 511.0 / 256.0 && -2.0 <= a.z <= 511.0 / 256.0
  {
    Acceleration(Normalize(read, 0), Normalize(read, 2), Normalize(read, 4))
  }

  /** A device log that starts with the initialisation write, followed only by burst reads. */
  ghost predicate InitializedLog(log: seq<Transaction>)
  {
    |log| >= 1 && log[0] == WriteOnly(InitWrite) &&
    forall i | 1 <= i < |log| :: log[i].WriteThenRead? && log[i].sent == [DataRegister]
  }

  class Accelerometer {
    const device: Device
    const write: array<Byte>
    const read: array<Byte>
    var disposed: bool

    ghost predicate Valid()
      reads this, write
    {
      write.Length == 1 && write[0] == DataRegister && read.Length == BurstLength && read != write
    }

    /** Creates the driver and issues the initialisation write, the only write it ever makes. */
    constructor (device: Device)
      modifies device
      ensures Valid() && this.device == device && !disposed
      ensures fresh(write) && fresh(read)
      ensures device.log == old(device.log) + [WriteOnly(InitWrite)]
      ensures old(device.log) == [] ==> InitializedLog(device.log)
    {
      this.device := device;
      write := new Byte[1] [DataRegister];
      read := new Byte[BurstLength];
      disposed := false;
      device.Write([0x2A, 0x01]);
    }

    /** Releases the driver; a second call changes nothing. */
    method Dispose()
      modifies this
      ensures disposed
      ensures old(disposed) ==> unchanged(this)
    {
      if !disposed {
        disposed := true;
      }
    }

    /** Reads all three axes from one burst; `answer` is the six bytes the chip returns. */
    method GetAcceleration(answer: seq<Byte>) returns (r: Result<Acceleration>)
      requires Valid() && |answer| == BurstLength
      modifies read, device
      ensures Valid()
      ensures disposed ==> r == Err(ObjectDisposed) && device.log == old(device.log) && unchanged(read)
      ensures !disposed ==> r == Ok(Axes(answer)) && read[..] == answer
      ensures !disposed ==> device.log == old(device.log) + [WriteThenRead([DataRegister], answer)]
      ensures InitializedLog(old(device.log)) ==> InitializedLog(device.log)
    {
      if disposed {
        return Err(ObjectDisposed);
      }
      assert write[..] == [DataRegister];
      device.WriteRead(write[..], read, answer);
      var x := Normalize(read[..], 0);
      var y := Normalize(read[..], 2);
      var z := Normalize(read[..], 4);
      r := Ok(Acceleration(x, y, z));
    }
  }
}

=== FILE: PCA9685.dfy ===
/** The 16-channel PWM controller, as an abstract state: one frequency
  * shared by every channel, an output-enable flag, and per channel the
  * duty cycle and the raw on/off ticks last written. Each getter returns
  * what was last set; how the chip encodes these in its registers is not
  * part of this model. */
module PCA9685 {
  import opened Signals

  /** The number of PWM channels on the chip. */
  const ChannelCount := 16

  predicate IsChannel(channel: int)
  {
    0 <= channel < ChannelCount
  }

  class Pwm {
    var frequency: int
    var outputEnabled: bool
    var duty: seq<real>
    var onTicks: seq<int>
    var offTicks: seq<int>
    var disposed: bool
    ghost const trace: Trace

    ghost predicate Valid()
      reads this
    {
      |duty| == ChannelCount && |onTicks| == ChannelCount && |offTicks| == ChannelCount
    }

    /** A controller with its outputs disabled and every channel off. The
      * frequency the chip runs at before the first write is left unknown. */
    constructor (trace: Trace)
      ensures Valid() && this.trace == trace && !disposed && !outputEnabled
      ensures forall c | IsChannel(c) :: duty[c] == 0.0 && onTicks[c] == 0 && offTicks[c] == 0
    {
      this.trace := trace;
      outputEnabled, disposed := false, false;
      duty := seq(ChannelCount, _ => 0.0);
      onTicks := seq(ChannelCount, _ => 0);
      offTicks := seq(ChannelCount, _ => 0);
    }

    /** The `Frequency` setter: affects every channel at once. */
    method SetFrequency(hz: int)
      requires Valid()
      modifies this, trace
      ensures Valid() && frequency == hz
      ensures outputEnabled == old(outputEnabled) && disposed == old(disposed)
      ensures duty == old(duty) && onTicks == old(onTicks) && offTicks == old(offTicks)
      ensures trace.events == old(trace.events) + [FrequencyWrite(hz)]
    {
      frequency := hz;
      trace.events := trace.events + [FrequencyWrite(hz)];
    }

    method SetOutputEnabled(enabled: bool)
      requires Valid()
      modifies this, trace
      ensures Valid() && outputEnabled == enabled
      ensures frequency == old(frequency) && disposed == old(disposed)
      ensures duty == old(duty) && onTicks == old(onTicks) && offTicks == old(offTicks)
      ensures trace.events == old(trace.events) + [OutputEnableWrite(enabled)]
    {
      outputEnabled := enabled;
      trace.events := trace.events + [OutputEnableWrite(enabled)];
    }

    method SetDutyCycle(channel: int, value: real)
      requires Valid() && IsChannel(channel)
      modifies this, trace
      ensures Valid() && duty == old(duty)[channel := value]
      ensures frequency == old(frequency) && outputEnabled == old(outputEnabled) && disposed == old(disposed)
      ensures onTicks == old(onTicks) && offTicks == old(offTicks)
      ensures trace.events == old(trace.events) + [DutyWrite(channel, value)]
    {
      duty := duty[channel := value];
      trace.events := trace.events + [DutyWrite(channel, value)];
    }

    /** Writes the raw on and off ticks of one channel. */
    method SetChannel(channel: int, on: int, off: int)
      requires Valid() && IsChannel(channel)
      modifies this, trace
      ensures Valid() && onTicks == old(onTicks)[channel := on] && offTicks == old(offTicks)[channel := off]
      ensures frequency == old(frequency) && outputEnabled == old(outputEnabled) && disposed == old(disposed)
      ensures duty == old(duty)
      ensures trace.events == old(trace.events) + [ChannelWrite(channel, on, off)]
    {
      onTicks := onTicks[channel := on];
      offTicks := offTicks[channel := off];
      trace.events := trace.events + [ChannelWrite(channel, on, off)];
    }

    method Dispose()
      modifies this
      ensures disposed
      ensures frequency == old(frequency) && outputEnabled == old(outputEnabled)
      ensures duty == old(duty) && onTicks == old(onTicks) && offTicks == old(offTicks)
    {
      disposed := true;
    }
  }
}

=== FILE: SamplePi.dfy ===
/** The start-up of the sample program that drives the board: it creates
  * the board and calibrates both servos to 500..2400 microseconds over
  * 0..180 degrees. */
module SamplePi {
  import opened Signals
  import opened Errors
  import opened PCA9685
  import opened GHI

  /** One `SetLimits(500, 2400, 0, 180)` call on a servo of a live board:
    * it passes, the board stays valid, the frequency becomes 50 Hz, no
    * channel changes, and every angle the servo accepts maps inside
    * 102..491 ticks. */
  method CalibrateServo(hat: FezHat, s: Servo)
    requires hat.Valid() && !hat.disposed && (s == hat.s1 || s == hat.s2)
    modifies s, hat.pwm, hat.pwm.trace
    ensures hat.Valid() && !hat.disposed
    ensures hat.pwm.frequency == ServoFrequency && hat.pwm.outputEnabled == old(hat.pwm.outputEnabled)
    ensures hat.pwm.duty == old(hat.pwm.duty) && hat.pwm.onTicks == old(hat.pwm.onTicks) && hat.pwm.offTicks == old(hat.pwm.offTicks)
    ensures s.limitsSet && s.minAngle == 0.0 && s.maxAngle == 180.0 && s.minTicks == 102 && s.maxTicks == 491
    ensures forall angle | 0.0 <= angle <= 180.0 :: 102 <= PositionTicks(s.scale, s.offset, angle) <= 491
  {
    PulseTicksExample();
    var o := s.SetLimits(500, 2400, 0.0, 180.0);
    forall angle | 0.0 <= angle <= 180.0
      ensures 102 <= PositionTicks(s.scale, s.offset, angle) <= 491
    {
      PositionTicksWithinPulseRange(102, 491, 180.0, angle);
    }
  }

  /** `TestFezHat`: `Create`, then `SetLimits(500, 2400, 0, 180)` on S1 and
    * on S2. The board is left valid and at rest, both servos are calibrated
    * at 50 Hz to 102..491 ticks, and every angle they accept maps into that
    * tick range. */
  method StartBoard() returns (hat: FezHat)
    ensures hat.Valid() && !hat.disposed
    ensures hat.pwm.frequency == ServoFrequency && hat.pwm.outputEnabled
    ensures forall c | IsChannel(c) :: hat.pwm.duty[c] == 0.0 && hat.pwm.onTicks[c] == 0 && hat.pwm.offTicks[c] == 0
    ensures hat.motorA.speed == 0.0 && hat.motorB.speed == 0.0
    ensures hat.s1.limitsSet && hat.s1.minAngle == 0.0 && hat.s1.maxAngle == 180.0
    ensures hat.s2.limitsSet && hat.s2.minAngle == 0.0 && hat.s2.maxAngle == 180.0
    ensures hat.s1.minTicks == 102 && hat.s1.maxTicks == 491
    ensures hat.s2.minTicks == 102 && hat.s2.maxTicks == 491
    ensures forall angle | 0.0 <= angle <= 180.0 :: 102 <= PositionTicks(hat.s1.scale, hat.s1.offset, angle) <= 491
    ensures forall angle | 0.0 <= angle <= 180.0 :: 102 <= PositionTicks(hat.s2.scale, hat.s2.offset, angle) <= 491
  {
    hat := new FezHat.Create();
    CalibrateServo(hat, hat.s1);
    CalibrateServo(hat, hat.s2);
  }
}

=== FILE: Signals.dfy ===
/** The order in which the board's outputs change. The PWM chip and the GPIO
  * controller both append to one shared trace, so that the relative order
  * of duty-cycle writes and direction-line writes can be stated. */
module Signals {

  /** The direction of a GPIO line. */
  datatype PinMode = Input | Output

  /** One externally visible effect on a PWM channel or a GPIO line. */
  datatype Event =
    | FrequencyWrite(hz: int)
    | OutputEnableWrite(enabled: bool)
    | DutyWrite(channel: int, duty: real)
    | ChannelWrite(channel: int, on: int, off: int)
    | LineMode(pin: nat, mode: PinMode)
    | LineWrite(pin: nat, level: bool)

  class Trace {
    ghost var events: seq<Event>

    constructor ()
      ensures events == []
    {
      events := [];
    }
  }
}
